=== FILE: README.md ===
# langlearner core, modelled in Dafny

This project models the core of the langlearner desktop app. It has a Go
backend with a tag service, a note service and an in-memory tag store. Its
React front end has a timed speaking quiz and the editors for categories,
tags and notes.

Each piece of behaviour is a pure function over immutable values:

- **Services.** A backend service call takes its storage's reply as a
  parameter. It returns both the record it handed to storage (`None` when it
  never called storage) and its own result.
- **Editors.** A front-end handler maps the component's state to its next
  state. The list a handler passes to its parent's change callback becomes
  the new list.
- **Quiz.** The quiz is an event system. The one-second interval, the
  question timeout and the answer timeout are events. Pending timers are
  part of the state.

Modules, by source file:

| module | models |
|---|---|
| `Types` | `backend/types` (tags, notes, page lists, the tag errors, `JSResp`) |
| `Seqs` | order-preserving filtering (`filter`, the keyword loops) |
| `Text` | `strings.ToLower`/`strings.Contains` (ASCII) and JavaScript `trim` |
| `Paging` | the pagination arithmetic shared by both services |
| `MemoryTagStorage` | `backend/storage/tag_storage.go` |
| `TagService` | `backend/services/tag_service.go` |
| `NoteService` | `backend/services/note_service.go` |
| `SpeakingPractice` | `frontend/src/components/SpeakingPractice.tsx` |
| `NameEditor` | `CategoryAndTagManagement.tsx` and `CategoryManagement.tsx` (identical handlers) |
| `TagManagement` | `TagManagement.tsx` |
| `NoteForm` | the note handlers shared by `NoteManagement.tsx` and `ContentManagement.tsx` |
| `NoteManagement`, `ContentManagement` | those two components' state |

## Model

| member | source | states |
|---|---|---|
| Seqs.Filter | backend/services/tag_service.go:45-51 | the kept elements are exactly the input's elements that pass the test, as a subsequence of the input (input order kept) |
| Seqs.FilterCounts | backend/services/tag_service.go:45-51 | each value occurs in the result exactly as often as in the input if it passes the test, and not at all otherwise |
| Text.Lower | backend/services/tag_service.go:48 | lower-casing keeps the length, maps each character on its own and leaves no upper-case letter |
| Text.Contains | backend/services/tag_service.go:48 | `strings.Contains`: a pattern that starts the text is contained, and a contained pattern is never longer than the text |
| Text.ContainsIff | backend/services/tag_service.go:48 | the recursive substring test holds exactly when the pattern occurs at some index |
| Text.ContainsNoLonger | backend/services/note_service.go:91 | a text shorter than the pattern never contains it |
| Text.Trim | frontend/src/components/CategoryAndTagManagement.tsx:76 | `trim()` never lengthens the text, and leaves nothing exactly when the text is all JavaScript white space or line terminators |
| Text.IsBlank | frontend/src/components/CategoryAndTagManagement.tsx:76 | the guard `!s.trim()` holds exactly when every character is white space or a line terminator |
| Text.BlankIff | frontend/src/components/CategoryAndTagManagement.tsx:76 | `!s.trim()` holds exactly when every character is JavaScript white space or a line terminator |
| Paging.NormalizePage | backend/services/tag_service.go:32-34 | a page below 1 becomes 1; any other page is kept |
| Paging.NormalizePageSize | backend/services/tag_service.go:35-37 | a size below 1 becomes 10; any other size is kept |
| Paging.CeilDiv | backend/services/tag_service.go:54 | the page count is the least count whose pages hold every row |
| Paging.Slice | backend/services/tag_service.go:56-69 | the page holds the rows from `(page-1)*size` on, at most `size` of them, clamped at the end; it is empty past the end |
| Paging.Paginate | backend/services/tag_service.go:71-77 | the list reports the whole filtered count, the least sufficient page count, the normalised page and size, and that page's rows |
| Paging.SliceNonEmptyIff | backend/services/tag_service.go:64-69 | a page has rows exactly when its number is at most the page count |
| Paging.PagesReassemble | backend/services/tag_service.go:53-69 | pages 1 to the page count, joined, are the whole filtered list in order |
| MemoryTagStorage.FirstMatch | backend/storage/tag_storage.go:46-51 | the scan finds the first position holding the id, or proves that no position holds it |
| MemoryTagStorage.New | backend/storage/tag_storage.go:25-29 | a new store is empty |
| MemoryTagStorage.List | backend/storage/tag_storage.go:32-34 | the reply is a success holding every stored tag, in order |
| MemoryTagStorage.ListIgnoresQuery | backend/storage/tag_storage.go:32-34 | every query gets all stored tags, in order, with no error |
| MemoryTagStorage.Create | backend/storage/tag_storage.go:37-42 | the tag gets id `len+1` and is appended; the earlier tags stay as they were |
| MemoryTagStorage.Update | backend/storage/tag_storage.go:45-53 | succeeds exactly when some tag has the id and then overwrites the first one only; otherwise `ErrTagNotFound` and no change |
| MemoryTagStorage.Delete | backend/storage/tag_storage.go:56-64 | succeeds exactly when some tag has the id and then removes the first one only, keeping order; otherwise `ErrTagNotFound` and no change |
| MemoryTagStorage.CreateAllNumbers | backend/storage/tag_storage.go:37-42 | successive creates number the new tags consecutively after the current length |
| MemoryTagStorage.CreateAllFromEmpty | backend/storage/tag_storage.go:39 | from an empty store, n creates give ids 1..n in order |
| MemoryTagStorage.IdReuseAfterDelete | backend/storage/tag_storage.go:39 | deleting any tag but the last, then creating, hands out an id the last tag still holds |
| MemoryTagStorage.IdReuseExample | backend/storage/tag_storage.go:37-64 | create a and b, delete 1, create c: two tags have id 2 |
| MemoryTagStorage.CreateFresh | backend/storage/tag_storage.go:37-42 | the corrected create picks an id not in use and keeps ids unique |
| MemoryTagStorage.UpdatePreservesUniqueIds | backend/storage/tag_storage.go:45-53 | update keeps ids unique |
| MemoryTagStorage.DeletePreservesUniqueIds | backend/storage/tag_storage.go:56-64 | delete keeps ids unique, and with unique ids no tag has the deleted id afterwards |
| TagService.EmptyNameText | backend/services/tag_service.go:83 | the empty-name error has the same text as `ErrTagNameEmpty` |
| TagService.Matching | backend/services/tag_service.go:45-51 | the kept tags are exactly those whose name contains the keyword, ignoring ASCII case, in storage order and with every copy of a kept tag; an empty keyword keeps all tags |
| TagService.List | backend/services/tag_service.go:31-78 | a storage error is passed on; otherwise the list has the normalised page and size, the filtered count, the least sufficient page count, and that page of matching tags |
| TagService.ListPagesReassemble | backend/services/tag_service.go:53-77 | reading pages 1 to the reported page count returns every matching tag once, in order |
| TagService.ListPageNonEmptyIff | backend/services/tag_service.go:64-69 | a page has rows exactly when its number is at most the reported page count |
| TagService.MatchingTestTags | backend/services/tag_service_test.go:84-111 | over the unit tests' tags, keyword "tag1" keeps only `tag1`, and no keyword keeps both |
| TagService.ListExamples | backend/services/tag_service_test.go:56-111 | the listing results expected for the three unit-test cases (empty store, no keyword, keyword "tag1") |
| TagService.Create | backend/services/tag_service.go:81-94 | an empty name is refused without a storage call; otherwise `{Name}` is stored, and either storage's id comes back or its error does |
| TagService.CreateOverMemoryStore | backend/storage/tag_storage.go:37-42 | over the in-memory store, a create returns the tag the store appended, with id `len+1` |
| TagService.Update | backend/services/tag_service.go:97-110 | an empty name is refused without a storage call; otherwise exactly `{ID, Name}` is stored, and unless storage fails the name comes back with the id storage left in the record (fresh when a save of id 0 inserts) |
| TagService.Delete | backend/services/tag_service.go:113-115 | forwards the id and returns storage's outcome |
| TagService.EmptyNameIgnoresStorage | backend/services/tag_service.go:82-84 | for an empty name the result does not depend on storage |
| NoteService.Matching | backend/services/note_service.go:44-50 | the kept notes are exactly those whose front contains the keyword, ignoring ASCII case, in storage order and with every copy of a kept note |
| NoteService.ListRequest | backend/services/note_service.go:30-38 | storage is asked for the normalised page: offset `(page-1)*size`, limit `size`, id 0 |
| NoteService.List | backend/services/note_service.go:29-78 | success is 1 exactly when storage succeeds; a failure carries storage's message; otherwise the list is paginated over the rows storage returned |
| NoteService.ListSkipsLaterPages | backend/services/note_service.go:36-68 | past page 1, a reply of at most one page gives no rows |
| NoteService.Window | backend/storage/sqlite_note_storage.go:25 | storage's offset and limit window: the rows `offset .. offset+limit` of the table, clamped at its end; nothing for an offset past the end; everything from the offset on for a negative limit; a negative offset counts as 0 |
| NoteService.DoubleOffsetExample | backend/services/note_service.go:36-68 | two notes, page size 1: page 2 comes back empty with total 1, though page 2 of the matches is the second note |
| NoteService.ListCorrectedRequest | backend/services/note_service.go:36-38 | the corrected query asks for every matching row from the start, with id 0 as the source passes |
| NoteService.ListCorrected | backend/services/note_service.go:52-77 | page p is page p of all matching notes; `total` is the number of matches and `totalPages` the least page count that holds them; a page has rows exactly when p is at most the page count |
| NoteService.ListCorrectedReassembles | backend/services/note_service.go:52-77 | the corrected pages, read from 1 to the page count, return every matching note once, in order |
| NoteService.CreateErrorMessage | backend/services/note_service.go:90-96 | a storage error mentioning "UNIQUE constraint" is reported as the duplicate message; any other error by its own text |
| NoteService.Create | backend/services/note_service.go:81-101 | an empty front is refused without a storage call; otherwise `{Front}` is stored; success is 1 exactly when storage succeeds, and the note comes back as storage left it: the front, the id storage assigned and the `created_at`/`updated_at` it stamped |
| NoteService.CreateDuplicateExample | backend/services/note_service.go:91-94 | a "UNIQUE constraint failed" driver error becomes the duplicate message |
| NoteService.CreateOtherErrorExample | backend/services/note_service.go:95 | another driver error is reported verbatim |
| NoteService.Update | backend/services/note_service.go:104-123 | an empty front is refused without a storage call; otherwise id and front go to storage; success is 1 exactly when storage succeeds, and the saved `{Front, Back}` comes back with the id storage left in the record (fresh when a save of id 0 inserts) and the timestamps it stamped |
| NoteService.UpdateSendsBackVerbatim | backend/services/note_service.go:111-114 | the note saved is always `{ID, Front, Back}`, with `Back` as given, because the skipped assignment would store the same empty string |
| NoteService.Delete | backend/services/note_service.go:126-135 | forwards the id; on storage success the reply is `{success: 1}` with no message or data, otherwise `{success: 0}` with storage's message |
| SpeakingPractice.JsRem | frontend/src/components/SpeakingPractice.tsx:86 | JavaScript `%`: the dividend minus the result is a multiple of `n`, and the result has the dividend's sign and lies strictly within `n` of 0; for a non-negative dividend it is the ordinary remainder |
| SpeakingPractice.Init | frontend/src/components/SpeakingPractice.tsx:61-67 | the quiz starts on card 0, answer hidden, stopped, with the countdown at the question time in seconds and no timer pending |
| SpeakingPractice.Tick | frontend/src/components/SpeakingPractice.tsx:75-77 | the countdown drops by one second and never goes below zero; nothing else changes |
| SpeakingPractice.QuestionElapsed | frontend/src/components/SpeakingPractice.tsx:80-82 | the answer is shown and the countdown restarts at the answer time |
| SpeakingPractice.AnswerElapsed | frontend/src/components/SpeakingPractice.tsx:85-89 | the next card, wrapping after the last; the answer is hidden and the countdown restarts at the question time |
| SpeakingPractice.TogglePlay | frontend/src/components/SpeakingPractice.tsx:99-101 | flips playing and nothing else |
| SpeakingPractice.Reset | frontend/src/components/SpeakingPractice.tsx:103-108 | the displayed state returns to the initial one; pending timers are untouched |
| SpeakingPractice.Rerun | frontend/src/components/SpeakingPractice.tsx:69-97 | the effect runs again only when the index or the playing flag changed; it then re-arms the question timeout exactly when playing, and the cleanup as written leaves pending answer timeouts alone |
| SpeakingPractice.Handle | frontend/src/components/SpeakingPractice.tsx:75-108 | what each callback does to the state: the tick only counts down; the question timeout reveals the answer and turns into one pending answer timeout; the answer timeout advances the index by JavaScript `%` and hides the answer; the play button flips playing; reset returns to card 0 stopped and leaves the timers alone |
| SpeakingPractice.StepWith | frontend/src/components/SpeakingPractice.tsx:69-97 | a callback that does not exist changes nothing; otherwise the callback's displayed state is kept, and when the index or playing changed the question timeout is re-armed exactly when playing (and the corrected cleanup also drops pending answer timeouts) |
| SpeakingPractice.Run | frontend/src/components/SpeakingPractice.tsx:69-108 | the component as written keeps the state invariant over any sequence of events |
| SpeakingPractice.RunCorrected | frontend/src/components/SpeakingPractice.tsx:93-96 | with a cleanup that also clears the answer timeout, the invariant holds over any sequence of events, so no answer timeout is pending while stopped |
| SpeakingPractice.StepPreservesValid | frontend/src/components/SpeakingPractice.tsx:69-108 | one event keeps the index in the deck, the countdown non-negative, and a question timeout only while playing |
| SpeakingPractice.RunPreservesValid | frontend/src/components/SpeakingPractice.tsx:69-108 | every reachable state satisfies that invariant |
| SpeakingPractice.StrayAdvanceAfterReset | frontend/src/components/SpeakingPractice.tsx:85-96 | start, question timeout, reset: the uncleared answer timeout still fires and moves the stopped quiz to card 1 |
| SpeakingPractice.PausedIsFrozen | frontend/src/components/SpeakingPractice.tsx:93-96 | when the cleanup also clears the answer timeout, timer events change nothing while stopped |
| SpeakingPractice.ResetSticks | frontend/src/components/SpeakingPractice.tsx:103-108 | when the cleanup also clears the answer timeout, reset yields the initial state and timer events do not move it |
| SpeakingPractice.OneCardStalls | frontend/src/components/SpeakingPractice.tsx:78-96 | with a one-card deck the as-written quiz stops after one cycle: the index stays 0, so the effect does not rerun, and no timer is armed while it still shows as playing |
| SpeakingPractice.CycleAdvances | frontend/src/components/SpeakingPractice.tsx:80-90 | while playing, a question timeout then an answer timeout show the next card's question, with a question timeout re-armed |
| SpeakingPractice.WrapSucc | frontend/src/components/SpeakingPractice.tsx:86 | wrapping the successor steps the wrapped value, back to 0 after the last card |
| SpeakingPractice.AdvanceIndex | frontend/src/components/SpeakingPractice.tsx:86 | after k answer timeouts the index has moved k places round the deck |
| SpeakingPractice.AdvanceWrapsAround | frontend/src/components/SpeakingPractice.tsx:86 | a full round of answer timeouts returns to the starting card |
| SpeakingPractice.ToggleInvolution | frontend/src/components/SpeakingPractice.tsx:99-101 | toggling twice is the identity |
| SpeakingPractice.ResetIdempotent | frontend/src/components/SpeakingPractice.tsx:103-108 | resetting twice is the same as resetting once |
| SpeakingPractice.PauseResumeKeepsProgress | frontend/src/components/SpeakingPractice.tsx:69-101 | pause then resume keeps the card, the phase and the countdown, and re-arms the question timeout |
| SpeakingPractice.DefaultScenario | frontend/src/components/SpeakingPractice.tsx:61-90 | with the default props and the three cards: the answer shows with 4 s left, then card 1's question with 3 s |
| NameEditor.Mount | frontend/src/components/CategoryAndTagManagement.tsx:68-70 | the editor starts with an empty input, counter 1 and no edit in progress |
| NameEditor.Rename | frontend/src/components/CategoryAndTagManagement.tsx:79-83 | every item with the old name takes the new one; ids, order and the other items are kept |
| NameEditor.RenameToSelf | frontend/src/components/CategoryAndTagManagement.tsx:80-82 | renaming a name to itself changes nothing |
| NameEditor.RenameIdempotent | frontend/src/components/CategoryManagement.tsx:103-110 | after a rename no item keeps the old name, and renaming again changes nothing |
| NameEditor.Submit | frontend/src/components/CategoryAndTagManagement.tsx:74-92 | blank input: nothing changes; editing: rename; otherwise append `{nextId, input}` and advance the counter; then the input clears and editing ends |
| NameEditor.Edit | frontend/src/components/CategoryAndTagManagement.tsx:94-97 | the item's name goes to the input and becomes the edited name |
| NameEditor.Cancel | frontend/src/components/CategoryManagement.tsx:145-154 | the input clears and editing ends; the items and the id counter are kept |
| NameEditor.WithoutId | frontend/src/components/CategoryAndTagManagement.tsx:100 | the kept items are exactly those with a different id, in order, every copy kept |
| NameEditor.WithoutAbsentId | frontend/src/components/CategoryAndTagManagement.tsx:100 | deleting an id no item has changes nothing |
| NameEditor.Delete | frontend/src/components/CategoryAndTagManagement.tsx:99-101 | every item with the id is dropped; the form is untouched |
| NameEditor.AddAllConsecutiveIds | frontend/src/components/CategoryAndTagManagement.tsx:84-87 | successive adds append the names with consecutive ids from the counter |
| NameEditor.EditThenSubmitUnchanged | frontend/src/components/CategoryManagement.tsx:99-124 | editing an item and submitting the untouched input leaves the list as it was |
| NameEditor.DeleteIdempotent | frontend/src/components/CategoryManagement.tsx:126-128 | deleting twice is the same as deleting once |
| NameEditor.RemountReusesId | frontend/src/components/CategoryAndTagManagement.tsx:69 | a remounted editor over a list that holds id 1 gives the next item id 1 again; deleting it also deletes the old item |
| NameEditor.MountFresh | frontend/src/components/CategoryAndTagManagement.tsx:69 | the corrected mount starts the counter above every id in the list, so the editor invariant holds from the start |
| NameEditor.SubmitKeepsConsistent | frontend/src/components/CategoryAndTagManagement.tsx:74-92 | submit keeps ids unique and below the counter |
| NameEditor.EditKeepsConsistent | frontend/src/components/CategoryAndTagManagement.tsx:94-97 | edit and cancel keep ids unique and below the counter |
| NameEditor.DeleteKeepsConsistent | frontend/src/components/CategoryAndTagManagement.tsx:99-101 | delete keeps ids unique and below the counter |
| TagManagement.Submit | frontend/src/components/TagManagement.tsx:110-121 | blank input: nothing; editing: a local rename only, with the input and editing mode kept; otherwise a create request for the input, with the list unchanged |
| TagManagement.OnCreated | frontend/src/components/TagManagement.tsx:121-133 | `success === 0`: an error notice and no change; no `data`: no change; otherwise the new tag is appended to the submit-time list, the form clears, and a success notice shows |
| TagManagement.SubmitThenCreated | frontend/src/components/TagManagement.tsx:110-133 | a successful create from an idle editor appends the typed name with the returned id |
| TagManagement.CreatedRestoresSnapshot | frontend/src/components/TagManagement.tsx:128-132 | the callback rebuilds the list from the submit-time snapshot, not from the current list |
| TagManagement.Edit | frontend/src/components/TagManagement.tsx:137-140 | the tag's name goes to the input and becomes the edited name |
| TagManagement.Cancel | frontend/src/components/TagManagement.tsx:164-167 | the input clears and editing ends |
| TagManagement.RenameKeepsEditing | frontend/src/components/TagManagement.tsx:114-119 | after a rename the form still shows the new name and still edits by the old one |
| TagManagement.Delete | frontend/src/components/TagManagement.tsx:142-145 | the tag's id is sent for deletion and every tag with that id is dropped locally, whatever the reply |
| NoteForm.Save | frontend/src/components/NoteManagement.tsx:92-102 | a form with id 0 is appended with the clock as its id; any other form replaces every note with its id, in place |
| NoteForm.Remove | frontend/src/components/NoteManagement.tsx:116-118 | the result is a subsequence of the list, holding every occurrence of each note with a different id and no note with the id |
| NoteForm.SetField | frontend/src/components/NoteManagement.tsx:82-90 | the named text field takes the value; nothing else changes |
| NoteForm.SelectCategories | frontend/src/components/NoteManagement.tsx:142-150 | the selected categories are exactly those whose names are selected, in list order, every copy kept |
| NoteForm.SelectAll | frontend/src/components/NoteManagement.tsx:143-145 | selecting every name picks the whole category list |
| NoteForm.EditSaveRoundTrip | frontend/src/components/NoteManagement.tsx:97-114 | with unique ids, saving an edited note untouched leaves the list unchanged |
| NoteForm.SaveReplacesOne | frontend/src/components/NoteManagement.tsx:99-101 | with unique ids, saving an edit changes exactly the position holding its id |
| NoteForm.SaveAbsentIdIsLost | frontend/src/components/NoteManagement.tsx:99-101 | an edit of a note no longer in the list is dropped |
| NoteForm.SaveKeepsUniqueIds | frontend/src/components/NoteManagement.tsx:94-101 | saving keeps ids unique when a new note's clock reading is unused |
| NoteForm.AddThenRemove | frontend/src/components/NoteManagement.tsx:94-118 | deleting the note just added restores the list |
| NoteForm.RemoveIdempotent | frontend/src/components/NoteManagement.tsx:116-118 | deleting twice is the same as deleting once |
| NoteManagement.Mount | frontend/src/components/NoteManagement.tsx:72-78 | the form starts as the empty note with empty category and tag lists |
| NoteManagement.InputChange | frontend/src/components/NoteManagement.tsx:82-90 | typing changes only the form's named field |
| NoteManagement.PickCategories | frontend/src/components/NoteManagement.tsx:142-150 | picking changes only the form's categories |
| NoteManagement.Submit | frontend/src/components/NoteManagement.tsx:92-110 | a new note is appended with the clock as its id; an edited note replaces, in place, every note with its id and nothing else; the form resets to the empty note |
| NoteManagement.Edit | frontend/src/components/NoteManagement.tsx:112-114 | the note is loaded into the form |
| NoteManagement.Delete | frontend/src/components/NoteManagement.tsx:116-118 | every note with the id is dropped, and the others keep their order and multiplicity; the form is kept |
| NoteManagement.Cancel | frontend/src/components/NoteManagement.tsx:166-174 | the form is reset and the list kept |
| NoteManagement.TypeAndSubmit | frontend/src/components/NoteManagement.tsx:72-110 | typing a front and back into the empty form and submitting appends exactly that note, stamped with the clock |
| NoteManagement.EditThenSubmit | frontend/src/components/NoteManagement.tsx:92-114 | with unique ids, edit then submit returns to the freshly mounted state over the same list |
| NoteManagement.EditThenCancel | frontend/src/components/NoteManagement.tsx:166-174 | edit then cancel returns to the freshly mounted state over the same list |
| ContentManagement.Init | frontend/src/components/ContentManagement.tsx:86-95 | the screen starts on the notes tab with no notes or categories and an empty form |
| ContentManagement.SelectTab | frontend/src/components/ContentManagement.tsx:99-101 | selecting a tab changes only the tab |
| ContentManagement.NotesChange | frontend/src/components/ContentManagement.tsx:150 | the child's note list replaces the screen's |
| ContentManagement.CategoriesChange | frontend/src/components/ContentManagement.tsx:151 | the child's category list replaces the screen's |
| ContentManagement.InputChange | frontend/src/components/ContentManagement.tsx:103-111 | typing changes only the form's named field |
| ContentManagement.Submit | frontend/src/components/ContentManagement.tsx:113-125 | a new note is appended with the clock as its id; an edited note replaces, in place, every note with its id and nothing else; the form resets to a note with no category or tag list |
| ContentManagement.Edit | frontend/src/components/ContentManagement.tsx:127-129 | the note is loaded into the form |
| ContentManagement.Delete | frontend/src/components/ContentManagement.tsx:131-133 | every note with the id is dropped, and the others keep their order and multiplicity; nothing else changes |
| ContentManagement.SubmitResetDiffersFromInit | frontend/src/components/ContentManagement.tsx:89-124 | after a submit the form differs from the initial one: it has no category or tag list |
| ContentManagement.AddThenDelete | frontend/src/components/ContentManagement.tsx:115-133 | adding a note and deleting its new id restores the list |

## Left out

- SQLite storage (`sqlite_tag_storage.go`, `sqlite_note_storage.go`, `db.go`), GORM and `main.go`: storage replies are parameters. `NoteService.Window` abstracts only the offset and limit window of the note query. The SQL filter (`front LIKE ? OR back LIKE ?`) and the `updated_at desc` ordering live in the `table` argument.
- `tag_service.go:40` calls `s.storage.List()` with no arguments, but the storage interface takes four. The model follows the body: the service filters everything storage returns. The service tests instead expect the four-argument call and a `JSResp`; `TagService.ListExamples` checks only the expected page lists.
- The Wails bridge: a Go `(value, error)` pair is modelled as `Result`. The front end reads `success`, `msg` and `data` from the tag service's reply, which does not return those fields. `TagManagement.OnCreated` therefore takes the reply as an abstract object with those three optional parts.
- Unicode: `strings.ToLower` is modelled for ASCII letters only, and strings are sequences of code points, not UTF-8 bytes or UTF-16 units.
- Paging.CeilDiv: `math.Ceil` on `float64` is modelled as exact integer ceiling division. That is exact for any count below 2^53.
- Go `int` overflow in `(page-1)*pageSize` and in `len+1`, and JavaScript number precision for ids: integers are unbounded.
- Real time: timer delays and the order in which pending timeouts fire are not modelled. Any enabled timer event may come next. The interval restarting on each effect run is folded into `TickEvent`.
- `playAudio`, `Audio` playback, rendering, styles, and the notification context: no state of the model depends on them. `TagManagement`'s notices are returned as values.
- `TagManagement`'s `nextId` state is never read, so it is left out.
- `CategoryManagement`'s `error` and `success` messages and their 3-second auto-clear: nothing ever sets them.
- The text inputs' `onChange` setters are plain field updates. The model has the input as a state field.
- `TabContent`'s choice of child component: only its effect on `NameEditor` (remounting) is modelled.
- `TagManagement.OnCreated`: a reply that is `null`, or a rejected promise, is not modelled. The callback then throws before any state changes, which is the same as the missing-`data` case.
- Logging (`console.log`, `console.error`) and `event.preventDefault()`.
- The `TagStorage` interface is declared in both `tag_storage.go` and `tag_storage_if.go`. Only the in-memory store's behaviour is modelled.
- The quiz's deck size is a parameter `count`. The component uses the three-card `MockData`, which `SpeakingPractice.DefaultScenario` and `SpeakingPractice.StrayAdvanceAfterReset` use. `SpeakingPractice.CycleAdvances` assumes at least two cards; with one card the as-written quiz stops after one cycle, which `SpeakingPractice.OneCardStalls` shows. The shipped deck never has one card.
- SpeakingPractice.Tick: the countdown is an exact rational, while JavaScript computes `timeout / 1000` and `prev - 1` in IEEE doubles. The two agree for whole-second timeouts such as the defaults 3000 and 4000 ms, but not for a timeout such as 100 ms.
- NoteManagement.Submit: the browser's `required` check on the two text areas (`NoteManagement.tsx:129`, `:136`) is not modelled. In the app, a form with an empty front or back is never submitted. The model's `NoteManagement.Submit` (and the unreachable `ContentManagement.Submit`) save such a note as the handler itself would.
- GORM's `autoCreateTime`/`autoUpdateTime` clock and the primary key it writes back: the timestamps storage writes into a created or saved note, and the id it leaves in the record, are part of storage's reply to `NoteService.Create` and `NoteService.Update`. They are not a clock or id source of their own. The same holds for the id in storage's reply to `TagService.Update`. `Save` on id 0 inserts a new row and writes its fresh id into the record, which the service then returns.
- Handlers that nothing in the rendered page calls are modelled as written, but are dead code in the app. `TagManagement.Edit` and `TagManagement.RenameKeepsEditing` are unreachable because the tag list renders only a delete action (`TagManagement.tsx:175-185`). `TagManagement.Cancel` is unreachable too: its button shows only in editing mode, which only the edit handler enters (`TagManagement.tsx:162-170`). `ContentManagement.InputChange`, `ContentManagement.Submit`, `ContentManagement.Edit` and `ContentManagement.Delete` are unreachable because that component renders only its tab list and tab content (`ContentManagement.tsx:135-155`).

## Findings

| source | as written | input that shows it | evidently intended | confidence | as-written member | corrected member |
|---|---|---|---|---|---|---|
| backend/services/note_service.go:36-68 | storage is asked for one page at offset `(page-1)*size`, and the same offset is then applied again to that page | two matching notes, page size 1, page 2: the data is empty and the total is 1 | page 2 holds the second note, and `total` counts every match | high (not executed) | NoteService.DoubleOffsetExample | NoteService.ListCorrected |
| backend/storage/tag_storage.go:39 | a new tag gets id `len(tags)+1` | create a and b (ids 1, 2), delete 1, create c: c gets id 2, which b still holds | ids stay unique (update and delete act on "the" tag with an id) | high (not executed) | MemoryTagStorage.IdReuseAfterDelete | MemoryTagStorage.CreateFresh |
| frontend/src/components/CategoryAndTagManagement.tsx:69 | the id counter is component state starting at 1, and the component remounts each time its tab is shown | add a category (id 1), switch tabs and back, add another: it also gets id 1, and deleting it deletes both | new items get ids unused in the list (ids are the React keys and the delete criterion) | medium (not executed) | NameEditor.RemountReusesId | NameEditor.MountFresh |
| frontend/src/components/SpeakingPractice.tsx:85-96 | the answer timeout is set inside the question timeout and never cleared by the effect's cleanup | play, wait for the answer, press reset: the quiz then moves to card 1 while stopped | reset and pause stop the quiz where it is | medium (not executed) | SpeakingPractice.StrayAdvanceAfterReset | SpeakingPractice.ResetSticks |

=== FILE: content_management.dfy ===
/** `ContentManagement`: the top-level content screen. It owns the note and
    category lists, the selected tab, and its own copy of the note form
    handlers; the lists are changed by the child editors through
    `setNotes` and `setCategories`. */
module ContentManagement {
  import opened Types
  import NoteForm
  import Seqs

  type Note = NoteForm.Note

  /** The tab value is whatever the tab list reports; the screen offers
      "notes" and "categories". */
  datatype Screen = Screen(selectedTab: string, notes: seq<Note>,
                           categories: seq<NoteForm.Label>, current: Note)

  const NotesTab := "notes"

  /** The screen as first rendered. */
  function Init(): (s: Screen)
    ensures s.selectedTab == NotesTab && s.notes == [] && s.categories == []
    ensures s.current == NoteForm.BlankNote
  {
    Screen(NotesTab, [], [], NoteForm.BlankNote)
  }

  /** `handleTabSelect`. */
  function SelectTab(s: Screen, tab: string): (r: Screen)
    ensures r.selectedTab == tab && r.(selectedTab := s.selectedTab) == s
  {
    s.(selectedTab := tab)
  }

  /** The child editors' change callbacks. */
  function NotesChange(s: Screen, notes: seq<Note>): (r: Screen)
    ensures r.notes == notes && r.(notes := s.notes) == s
  {
    s.(notes := notes)
  }

  function CategoriesChange(s: Screen, categories: seq<NoteForm.Label>): (r: Screen)
    ensures r.categories == categories && r.(categories := s.categories) == s
  {
    s.(categories := categories)
  }

  /** `handleInputChange`. */
  function InputChange(s: Screen, field: NoteForm.Field, value: string): (r: Screen)
    ensures r.current == NoteForm.SetField(s.current, field, value)
    ensures r.(current := s.current) == s
  {
    s.(current := NoteForm.SetField(s.current, field, value))
  }

  /** `handleSubmit`: save the form into the list and reset it, here to a
      note without category or tag lists. */
  function Submit(s: Screen, now: int): (r: Screen)
    ensures r.current == NoteForm.BareNote && r.current.categories.None?
    ensures s.current.id == 0 ==>
      |r.notes| == |s.notes| + 1 && r.notes[..|s.notes|] == s.notes
      && r.notes[|s.notes|] == s.current.(id := now)
    ensures s.current.id != 0 ==>
      && |r.notes| == |s.notes|
      && (forall i :: 0 <= i < |s.notes| && s.notes[i].id == s.current.id ==> r.notes[i] == s.current)
      && (forall i :: 0 <= i < |s.notes| && s.notes[i].id != s.current.id ==> r.notes[i] == s.notes[i])
    ensures r.selectedTab == s.selectedTab && r.categories == s.categories
  {
    s.(notes := NoteForm.Save(s.notes, s.current, now), current := NoteForm.BareNote)
  }

  /** `handleEdit`. */
  function Edit(s: Screen, note: Note): (r: Screen)
    ensures r.current == note && r.(current := s.current) == s
  {
    s.(current := note)
  }

  /** `handleDelete`. */
  function Delete(s: Screen, id: int): (r: Screen)
    ensures forall n :: n in r.notes <==> n in s.notes && n.id != id
    ensures forall n :: multiset(r.notes)[n] == if n.id != id then multiset(s.notes)[n] else 0
    ensures Seqs.Subsequence(r.notes, s.notes)
    ensures r.(notes := s.notes) == s
  {
    s.(notes := NoteForm.Remove(s.notes, id))
  }

  /** After a submit the form is not the one the screen started with: the
      reset drops the empty category and tag lists. */
  lemma SubmitResetDiffersFromInit(s: Screen, now: int)
    ensures Submit(s, now).current != Init().current
    ensures Submit(s, now).current == Init().current.(categories := None, tags := None)
  {
  }

  /** Adding a note and deleting it by its new id restores the list. */
  lemma AddThenDelete(s: Screen, now: int)
    requires s.current.id == 0 && !NoteForm.HasNoteId(s.notes, now)
    ensures Delete(Submit(s, now), now).notes == s.notes
  {
    NoteForm.AddThenRemove(s.notes, s.current, now);
  }
}

=== FILE: name_editor.dfy ===
/** The name-list editor shared by `CategoryAndTagManagement` and
    `CategoryManagement` (their handlers are the same code): a list of
    `{id, name}` items owned by the parent, a text input, the next id to hand
    out, and the name of the item being edited, if any. Each handler is a
    function from the editor state to the next one; the list the handler
    passes to the parent's change callback becomes the new `items`. */
module NameEditor {
  import opened Types
  import Seqs
  import Text

  datatype Item = Item(id: int, name: string)

  datatype Editor = Editor(items: seq<Item>, input: string, nextId: int, editing: Option<string>)

  /** The component's initial state around the parent's list. */
  function Mount(items: seq<Item>): (e: Editor)
    ensures e.items == items && e.input == "" && e.nextId == 1 && e.editing == None
  {
    Editor(items, "", 1, None)
  }

  /** `if (editingItemName)`: `null` and `''` are both falsy. */
  predicate IsEditing(editing: Option<string>) {
    editing.Some? && editing.value != ""
  }

  /** Every item called `from` is renamed to `to`; ids, order and all other
      items are kept. */
  function Rename(items: seq<Item>, from: string, to: string): (r: seq<Item>)
    ensures |r| == |items|
    ensures forall i :: 0 <= i < |items| ==> r[i].id == items[i].id
    ensures forall i :: 0 <= i < |items| && items[i].name == from ==> r[i].name == to
    ensures forall i :: 0 <= i < |items| && items[i].name != from ==> r[i] == items[i]
  {
    seq(|items|, i requires 0 <= i < |items| =>
      if items[i].name == from then items[i].(name := to) else items[i])
  }

  /** Renaming a name to itself changes nothing. */
  lemma RenameToSelf(items: seq<Item>, name: string)
    ensures Rename(items, name, name) == items
  {
  }

  /** A rename leaves no item under the old name (when the name changes),
      and doing it again changes nothing. */
  lemma RenameIdempotent(items: seq<Item>, from: string, to: string)
    requires from != to
    ensures forall i :: 0 <= i < |items| ==> Rename(items, from, to)[i].name != from
    ensures Rename(Rename(items, from, to), from, to) == Rename(items, from, to)
  {
  }

  /** `handleSubmit`. A blank input is ignored. Otherwise, in editing mode
      every item with the edited name takes the input as its name; else an
      item with the next id is appended and the id counter moves on. Either
      way the input is cleared and editing mode ends. */
  function Submit(e: Editor): (r: Editor)
    ensures Text.IsBlank(e.input) ==> r == e
    ensures !Text.IsBlank(e.input) ==> r.input == "" && r.editing == None
    ensures !Text.IsBlank(e.input) && IsEditing(e.editing) ==>
      r.items == Rename(e.items, e.editing.value, e.input) && r.nextId == e.nextId
    ensures !Text.IsBlank(e.input) && !IsEditing(e.editing) ==>
      && |r.items| == |e.items| + 1
      && r.items[..|e.items|] == e.items
      && r.items[|e.items|] == Item(e.nextId, e.input)
      && r.nextId == e.nextId + 1
  {
    if Text.IsBlank(e.input) then e
    else if IsEditing(e.editing) then
      Editor(Rename(e.items, e.editing.value, e.input), "", e.nextId, None)
    else
      Editor(e.items + [Item(e.nextId, e.input)], "", e.nextId + 1, None)
  }

  /** `handleEdit`: put the item's name in the input and edit by that name. */
  function Edit(e: Editor, item: Item): (r: Editor)
    ensures r.input == item.name && r.editing == Some(item.name)
    ensures r.items == e.items && r.nextId == e.nextId
  {
    e.(input := item.name, editing := Some(item.name))
  }

  /** The cancel button: clear the input and leave editing mode. */
  function Cancel(e: Editor): (r: Editor)
    ensures r.input == "" && r.editing == None
    ensures r.items == e.items && r.nextId == e.nextId
  {
    e.(input := "", editing := None)
  }

  /** The items whose id differs from `id`, in order. */
  function WithoutId(items: seq<Item>, id: int): (r: seq<Item>)
    ensures forall x :: x in r <==> x in items && x.id != id
    ensures forall x :: multiset(r)[x] == if x.id != id then multiset(items)[x] else 0
    ensures Seqs.Subsequence(r, items)
  {
    Seqs.FilterCounts(items, (x: Item) => x.id != id);
    Seqs.Filter(items, (x: Item) => x.id != id)
  }

  /** Deleting an id nobody has changes nothing. */
  lemma WithoutAbsentId(items: seq<Item>, id: int)
    requires forall i :: 0 <= i < |items| ==> items[i].id != id
    ensures WithoutId(items, id) == items
  {
    Seqs.FilterKeepsAll(items, (x: Item) => x.id != id);
  }

  /** `handleDelete`: drop every item with the given item's id. */
  function Delete(e: Editor, item: Item): (r: Editor)
    ensures r.items == WithoutId(e.items, item.id)
    ensures r.input == e.input && r.editing == e.editing && r.nextId == e.nextId
  {
    e.(items := WithoutId(e.items, item.id))
  }

  /** Adding one name after another, with no edit in progress. */
  function AddAll(e: Editor, names: seq<string>): Editor
    decreases |names|
  {
    if |names| == 0 then e else AddAll(Submit(e.(input := names[0])), names[1..])
  }

  /** Successive adds of non-blank names append them with consecutive ids
      starting at the counter, and leave the earlier items alone. */
  lemma {:induction false} AddAllConsecutiveIds(e: Editor, names: seq<string>)
    requires !IsEditing(e.editing)
    requires forall i :: 0 <= i < |names| ==> !Text.IsBlank(names[i])
    ensures var r := AddAll(e, names);
            && |r.items| == |e.items| + |names|
            && r.items[..|e.items|] == e.items
            && (forall i :: 0 <= i < |names| ==> r.items[|e.items| + i] == Item(e.nextId + i, names[i]))
            && r.nextId == e.nextId + |names|
    decreases |names|
  {
    if |names| > 0 {
      var e1 := Submit(e.(input := names[0]));
      AddAllConsecutiveIds(e1, names[1..]);
      var r := AddAll(e, names);
      assert r == AddAll(e1, names[1..]);
      assert r.items[..|e1.items|][..|e.items|] == r.items[..|e.items|];
      forall i | 0 <= i < |names|
        ensures r.items[|e.items| + i] == Item(e.nextId + i, names[i])
      {
        if i > 0 {
          assert names[1..][i - 1] == names[i];
        } else {
          assert r.items[..|e1.items|][|e.items|] == e1.items[|e.items|];
        }
      }
    }
  }

  /** Editing an item and submitting without touching the input leaves the
      list as it was, and the editor back out of editing mode. */
  lemma EditThenSubmitUnchanged(e: Editor, item: Item)
    requires !Text.IsBlank(item.name)
    ensures Submit(Edit(e, item)) == e.(input := "", editing := None)
  {
    RenameToSelf(e.items, item.name);
  }

  predicate UniqueItemIds(items: seq<Item>) {
    forall i, j :: 0 <= i < j < |items| ==> items[i].id != items[j].id
  }

  /** The editor invariant the id counter is meant to keep: ids are unique
      and all below the counter. */
  predicate Consistent(e: Editor) {
    && UniqueItemIds(e.items)
    && forall i :: 0 <= i < |e.items| ==> e.items[i].id < e.nextId
  }

  /** The component is remounted whenever its tab is shown again, so its
      counter restarts at 1 over a list that may already hold id 1. The
      next add then duplicates that id, and deleting the new item deletes
      the old one with it. */
  lemma RemountReusesId(items: seq<Item>, k: int, name: string)
    requires 0 <= k < |items| && items[k].id == 1 && !Text.IsBlank(name)
    ensures var r := Submit(Mount(items).(input := name));
            && !UniqueItemIds(r.items)
            && items[k] !in Delete(r, r.items[|items|]).items
  {
    var r := Submit(Mount(items).(input := name));
    assert r.items[k] == items[k];
  }

  /** The largest id in the list, or 0 for none. */
  function MaxItemId(items: seq<Item>): (m: int)
    ensures m >= 0
    ensures forall i :: 0 <= i < |items| ==> items[i].id <= m
  {
    if |items| == 0 then 0
    else
      var rest := MaxItemId(items[..|items| - 1]);
      var last := items[|items| - 1].id;
      if last > rest then last else rest
  }

  /** A mount that starts the counter past every id already in the list. */
  function MountFresh(items: seq<Item>): (e: Editor)
    ensures e.items == items && e.input == "" && e.editing == None
    ensures e.nextId >= 1
    ensures UniqueItemIds(items) ==> Consistent(e)
  {
    Editor(items, "", MaxItemId(items) + 1, None)
  }

  /** Every handler keeps the invariant, so after a fresh mount ids stay
      unique however the list is edited. */
  lemma SubmitKeepsConsistent(e: Editor)
    requires Consistent(e)
    ensures Consistent(Submit(e))
  {
  }

  lemma EditKeepsConsistent(e: Editor, item: Item)
    requires Consistent(e)
    ensures Consistent(Edit(e, item)) && Consistent(Cancel(e))
  {
  }

  lemma DeleteKeepsConsistent(e: Editor, item: Item)
    requires Consistent(e)
    ensures Consistent(Delete(e, item))
  {
    var r := Delete(e, item).items;
    assert Seqs.Subsequence(r, e.items);
    SubsequenceKeepsUnique(r, e.items);
    assert forall i :: 0 <= i < |r| ==> r[i] in e.items;
  }

  /** Order-preserving selection keeps ids unique. */
  lemma {:induction false} SubsequenceKeepsUnique(a: seq<Item>, b: seq<Item>)
    requires Seqs.Subsequence(a, b) && UniqueItemIds(b)
    ensures UniqueItemIds(a)
    decreases |b|
  {
    if |a| > 0 && |b| > 0 {
      if a[0] == b[0] {
        SubsequenceKeepsUnique(a[1..], b[1..]);
        forall j | 0 < j < |a| ensures a[0].id != a[j].id {
          Seqs.SubsequenceMember(a[1..], b[1..], j - 1);
        }
      } else {
        SubsequenceKeepsUnique(a, b[1..]);
      }
    }
  }

  /** Deleting is idempotent. */
  lemma DeleteIdempotent(e: Editor, item: Item)
    ensures Delete(Delete(e, item), item) == Delete(e, item)
  {
    var once := WithoutId(e.items, item.id);
    assert forall i :: 0 <= i < |once| ==> once[i] in once;
    WithoutAbsentId(once, item.id);
  }
}

=== FILE: note_form.dfy ===
/** The note list editing shared by `NoteManagement` and `ContentManagement`
    (their handlers are the same code): a list of notes and a form holding the
    note being written. A form whose id is 0 is a new note; any other id is
    the note being edited. */
module NoteForm {
  import opened Types
  import Seqs
  import NameEditor

  /** A category or tag as the front end holds it. */
  type Label = NameEditor.Item

  /** The front end's note; the optional fields may be absent. */
  datatype Note = Note(id: int, front: string, back: string,
                       imageUrl: Option<string>, audioUrl: Option<string>,
                       categories: Option<seq<Label>>, tags: Option<seq<Label>>)

  /** The form's initial and reset value in `NoteManagement`. */
  const BlankNote := Note.Note(0, "", "", None, None, Some([]), Some([]))

  /** The form's reset value in `ContentManagement`: no category or tag list. */
  const BareNote := Note.Note(0, "", "", None, None, None, None)

  predicate UniqueNoteIds(notes: seq<Note>) {
    forall i, j :: 0 <= i < j < |notes| ==> notes[i].id != notes[j].id
  }

  predicate HasNoteId(notes: seq<Note>, id: int) {
    exists i :: 0 <= i < |notes| && notes[i].id == id
  }

  /** `handleSubmit`'s list. A new note is appended with the clock reading
      `now` (milliseconds) as its id; an edited note replaces every note that
      has its id, in place. */
  function Save(notes: seq<Note>, current: Note, now: int): (r: seq<Note>)
    ensures current.id == 0 ==>
      && |r| == |notes| + 1
      && r[..|notes|] == notes
      && r[|notes|] == current.(id := now)
    ensures current.id != 0 ==>
      && |r| == |notes|
      && (forall i :: 0 <= i < |notes| && notes[i].id == current.id ==> r[i] == current)
      && (forall i :: 0 <= i < |notes| && notes[i].id != current.id ==> r[i] == notes[i])
  {
    if current.id == 0 then notes + [current.(id := now)]
    else seq(|notes|, i requires 0 <= i < |notes| =>
           if notes[i].id == current.id then current else notes[i])
  }

  /** `handleDelete`'s list: the notes whose id differs from `id`, in order. */
  function Remove(notes: seq<Note>, id: int): (r: seq<Note>)
    ensures forall n :: n in r <==> n in notes && n.id != id
    ensures forall n :: multiset(r)[n] == if n.id != id then multiset(notes)[n] else 0
    ensures Seqs.Subsequence(r, notes)
  {
    Seqs.FilterCounts(notes, (n: Note) => n.id != id);
    Seqs.Filter(notes, (n: Note) => n.id != id)
  }

  /** The two text areas, by their `name` attribute. */
  datatype Field = Front | Back

  /** `handleInputChange`: the named field takes the typed value. */
  function SetField(note: Note, field: Field, value: string): (r: Note)
    ensures field == Front ==> r.front == value && r.back == note.back
    ensures field == Back ==> r.back == value && r.front == note.front
    ensures r.(front := note.front, back := note.back) == note
  {
    match field
    case Front => note.(front := value)
    case Back => note.(back := value)
  }

  /** The category picker: the categories whose names are selected, in the
      order of the category list. */
  function SelectCategories(note: Note, categories: seq<Label>, selected: seq<string>): (r: Note)
    ensures r.categories.Some?
    ensures forall c :: c in r.categories.value <==> c in categories && c.name in selected
    ensures forall c :: multiset(r.categories.value)[c] == if c.name in selected then multiset(categories)[c] else 0
    ensures Seqs.Subsequence(r.categories.value, categories)
    ensures r.(categories := note.categories) == note
  {
    Seqs.FilterCounts(categories, (c: Label) => c.name in selected);
    note.(categories := Some(Seqs.Filter(categories, (c: Label) => c.name in selected)))
  }

  /** Selecting every category name picks the whole list. */
  lemma SelectAll(note: Note, categories: seq<Label>, selected: seq<string>)
    requires forall i :: 0 <= i < |categories| ==> categories[i].name in selected
    ensures SelectCategories(note, categories, selected).categories == Some(categories)
  {
    Seqs.FilterKeepsAll(categories, (c: Label) => c.name in selected);
  }

  /** Editing a note and saving the form untouched leaves the list as it was,
      provided the note is not a new one and ids are unique. */
  lemma EditSaveRoundTrip(notes: seq<Note>, k: int, now: int)
    requires UniqueNoteIds(notes) && 0 <= k < |notes| && notes[k].id != 0
    ensures Save(notes, notes[k], now) == notes
  {
  }

  /** With unique ids, saving an edited note changes exactly the position
      that holds its id. */
  lemma SaveReplacesOne(notes: seq<Note>, k: int, current: Note, now: int)
    requires UniqueNoteIds(notes) && 0 <= k < |notes|
    requires current.id == notes[k].id && current.id != 0
    ensures Save(notes, current, now) == notes[k := current]
  {
  }

  /** An edit of a note no longer in the list is dropped on save. */
  lemma SaveAbsentIdIsLost(notes: seq<Note>, current: Note, now: int)
    requires current.id != 0 && !HasNoteId(notes, current.id)
    ensures Save(notes, current, now) == notes
  {
  }

  /** Saving keeps ids unique when a new note's clock reading is unused. */
  lemma SaveKeepsUniqueIds(notes: seq<Note>, current: Note, now: int)
    requires UniqueNoteIds(notes)
    requires current.id == 0 ==> !HasNoteId(notes, now)
    ensures UniqueNoteIds(Save(notes, current, now))
  {
    var r := Save(notes, current, now);
    if current.id == 0 {
      forall i, j | 0 <= i < j < |r| ensures r[i].id != r[j].id {
        if j < |notes| {
          assert r[i] == notes[i] && r[j] == notes[j];
        } else {
          assert r[i] == notes[i];
        }
      }
    }
  }

  /** Deleting the note just added restores the list, when its id was
      unused. */
  lemma {:induction false} AddThenRemove(notes: seq<Note>, current: Note, now: int)
    requires current.id == 0 && !HasNoteId(notes, now)
    ensures Remove(Save(notes, current, now), now) == notes
  {
    var keep := (n: Note) => n.id != now;
    assert Save(notes, current, now) == notes + [current.(id := now)];
    Seqs.FilterConcat(notes, [current.(id := now)], keep);
    Seqs.FilterKeepsAll(notes, keep);
    assert Seqs.Filter([current.(id := now)], keep) == [];
  }

  /** Deleting is idempotent. */
  lemma RemoveIdempotent(notes: seq<Note>, id: int)
    ensures Remove(Remove(notes, id), id) == Remove(notes, id)
  {
    var once := Remove(notes, id);
    assert forall i :: 0 <= i < |once| ==> once[i] in once;
    Seqs.FilterKeepsAll(once, (n: Note) => n.id != id);
  }
}

=== FILE: note_management.dfy ===
/** `NoteManagement`: the note editor over the parent's note list. The list
    the handlers pass to `onNotesChange` becomes the new `notes`; the clock
    reading `Date.now()` is a parameter. */
module NoteManagement {
  import opened Types
  import NoteForm
  import Seqs

  type Note = NoteForm.Note

  datatype Editor = Editor(notes: seq<Note>, current: Note)

  /** The component around the parent's list, with an empty form. */
  function Mount(notes: seq<Note>): (e: Editor)
    ensures e.notes == notes && e.current == NoteForm.BlankNote
  {
    Editor(notes, NoteForm.BlankNote)
  }

  /** `handleInputChange` on one of the two text areas. */
  function InputChange(e: Editor, field: NoteForm.Field, value: string): (r: Editor)
    ensures r.notes == e.notes
    ensures r.current == NoteForm.SetField(e.current, field, value)
  {
    e.(current := NoteForm.SetField(e.current, field, value))
  }

  /** The category picker's `onOptionSelect`. */
  function PickCategories(e: Editor, categories: seq<NoteForm.Label>, selected: seq<string>): (r: Editor)
    ensures r.notes == e.notes
    ensures r.current == NoteForm.SelectCategories(e.current, categories, selected)
  {
    e.(current := NoteForm.SelectCategories(e.current, categories, selected))
  }

  /** `handleSubmit`: save the form into the list (append a new note, or
      replace the edited one) and reset the form to the empty note. */
  function Submit(e: Editor, now: int): (r: Editor)
    ensures r.current == NoteForm.BlankNote
    ensures e.current.id == 0 ==>
      |r.notes| == |e.notes| + 1 && r.notes[..|e.notes|] == e.notes
      && r.notes[|e.notes|] == e.current.(id := now)
    ensures e.current.id != 0 ==>
      && |r.notes| == |e.notes|
      && (forall i :: 0 <= i < |e.notes| && e.notes[i].id == e.current.id ==> r.notes[i] == e.current)
      && (forall i :: 0 <= i < |e.notes| && e.notes[i].id != e.current.id ==> r.notes[i] == e.notes[i])
  {
    Editor(NoteForm.Save(e.notes, e.current, now), NoteForm.BlankNote)
  }

  /** `handleEdit`: load the note into the form. */
  function Edit(e: Editor, note: Note): (r: Editor)
    ensures r.notes == e.notes && r.current == note
  {
    e.(current := note)
  }

  /** `handleDelete`: drop every note with the id; the form is untouched. */
  function Delete(e: Editor, id: int): (r: Editor)
    ensures forall n :: n in r.notes <==> n in e.notes && n.id != id
    ensures forall n :: multiset(r.notes)[n] == if n.id != id then multiset(e.notes)[n] else 0
    ensures Seqs.Subsequence(r.notes, e.notes)
    ensures r.current == e.current
  {
    e.(notes := NoteForm.Remove(e.notes, id))
  }

  /** The cancel button: back to the empty form, list untouched. */
  function Cancel(e: Editor): (r: Editor)
    ensures r.notes == e.notes && r.current == NoteForm.BlankNote
  {
    e.(current := NoteForm.BlankNote)
  }

  /** Typing a front and a back into the empty form and submitting appends
      exactly that note, stamped with the clock, with empty category and
      tag lists. */
  lemma TypeAndSubmit(notes: seq<Note>, front: string, back: string, now: int)
    ensures var e := InputChange(InputChange(Mount(notes), NoteForm.Front, front), NoteForm.Back, back);
            Submit(e, now).notes == notes + [NoteForm.Note.Note(now, front, back, None, None, Some([]), Some([]))]
  {
  }

  /** Editing a stored note and submitting it unchanged leaves the list as
      it was and the form empty. */
  lemma EditThenSubmit(e: Editor, k: int, now: int)
    requires NoteForm.UniqueNoteIds(e.notes) && 0 <= k < |e.notes| && e.notes[k].id != 0
    ensures Submit(Edit(e, e.notes[k]), now) == Mount(e.notes)
  {
    NoteForm.EditSaveRoundTrip(e.notes, k, now);
  }

  /** Cancelling an edit loses nothing from the list and forgets the form. */
  lemma EditThenCancel(e: Editor, note: Note)
    ensures Cancel(Edit(e, note)) == Mount(e.notes)
  {
  }
}

=== FILE: note_service.dfy ===
/** `NoteServiceImpl`: the note counterpart of the tag service, answering
    every call with a `JSResp` envelope. Its listing asks storage for one
    page and then cuts the same page out of that page again; `ListCorrected`
    is the listing with a single offset. */
module NoteService {
  import opened Types
  import Seqs
  import Text
  import Paging

  /** The arguments of `storage.List(id, keyword, offset, limit)`; a negative
      limit means no limit. */
  datatype ListQuery = ListQuery(id: int, keyword: string, offset: int, limit: int)

  const EmptyFrontMessage := "tag name cannot be empty"
  const EmptyFrontUpdateMessage := "tag frontCont cannot be empty"
  const UniqueMarker := "UNIQUE constraint"
  const DuplicateMessage := "标签已存在"

  /** The notes whose front side the keyword matches, in storage order. */
  function Matching(notes: seq<Note>, keyword: string): (r: seq<Note>)
    ensures forall n :: n in r <==> n in notes && Text.Matches(keyword, n.front)
    ensures forall n :: multiset(r)[n] == if Text.Matches(keyword, n.front) then multiset(notes)[n] else 0
    ensures Seqs.Subsequence(r, notes)
  {
    Seqs.FilterCounts(notes, (n: Note) => Text.Matches(keyword, n.front));
    Seqs.Filter(notes, (n: Note) => Text.Matches(keyword, n.front))
  }

  /** The storage query `List` issues: the requested page, already offset. */
  function ListRequest(page: int, pageSize: int, keyword: string): (q: ListQuery)
    ensures q.id == 0 && q.keyword == keyword
    ensures q.limit == Paging.NormalizePageSize(pageSize)
    ensures q.offset == Paging.Start(Paging.NormalizePage(page), q.limit)
  {
    var p := Paging.NormalizePage(page);
    var size := Paging.NormalizePageSize(pageSize);
    ListQuery(0, keyword, (p - 1) * size, size)
  }

  /** `List(page, pageSize, keyword)`; `stored` is storage's answer to the
      query the call issues. The page is cut out of `stored` at the same
      offset storage already applied. */
  function List(page: int, pageSize: int, keyword: string, stored: Result<seq<Note>>): (r: JSResp)
    ensures stored.Failure? ==> r == JSResp(0, stored.error.Text(), None)
    ensures stored.Success? <==> r.success == 1
    ensures stored.Success? ==>
      && r.msg == ""
      && r.data.Some? && r.data.value.NoteListPayload?
      && var l := r.data.value.list;
      && l.currentPage == Paging.NormalizePage(page)
      && l.pageSize == Paging.NormalizePageSize(pageSize)
      && l.total == |Matching(stored.value, keyword)|
      && l.totalPages * l.pageSize >= l.total
      && (l.totalPages == 0 || (l.totalPages - 1) * l.pageSize < l.total)
      && (forall n :: n in l.data ==> n in stored.value && Text.Matches(keyword, n.front))
      && l.data == Paging.Slice(Matching(stored.value, keyword), l.currentPage, l.pageSize)
  {
    var p := Paging.NormalizePage(page);
    var size := Paging.NormalizePageSize(pageSize);
    match stored
    case Failure(e) => JSResp(0, e.Text(), None)
    case Success(rows) => JSResp(1, "", Some(NoteListPayload(Paging.Paginate(Matching(rows, keyword), p, size))))
  }

  /** Beyond the first page, a storage answer of at most one page (which is
      all storage returns for the query `List` issues) yields no rows. */
  lemma ListSkipsLaterPages(page: int, pageSize: int, keyword: string, rows: seq<Note>)
    requires page >= 2
    requires |rows| <= Paging.NormalizePageSize(pageSize)
    ensures List(page, pageSize, keyword, Success(rows)).data.value.list.data == []
  {
    var size := Paging.NormalizePageSize(pageSize);
    assert Paging.Start(page, size) >= size by {
      Paging.MulMonotone(1, page - 1, size);
    }
  }

  /** The rows a storage holding `table` (the rows its query matches, in its
      order) returns for a query: the window `offset .. offset + limit`. */
  function Window(table: seq<Note>, q: ListQuery): (rows: seq<Note>)
    ensures |rows| <= |table|
    ensures q.limit >= 0 ==> |rows| <= q.limit
    ensures 0 <= q.offset && 0 <= q.limit && q.offset + q.limit <= |table| ==>
      rows == table[q.offset..q.offset + q.limit]
    ensures 0 <= q.offset <= |table| && (q.limit < 0 || q.offset + q.limit >= |table|) ==>
      rows == table[q.offset..]
    ensures q.offset >= |table| ==> rows == []
    ensures q.offset <= 0 && 0 <= q.limit <= |table| ==> rows == table[..q.limit]
    ensures q.offset <= 0 && (q.limit < 0 || q.limit >= |table|) ==> rows == table
  {
    var lo := if q.offset < 0 then 0 else if q.offset > |table| then |table| else q.offset;
    var hi := if q.limit < 0 || lo + q.limit > |table| then |table| else lo + q.limit;
    table[lo..hi]
  }

  /** `List` as it runs against a storage holding `table`. */
  function ListFromTable(page: int, pageSize: int, keyword: string, table: seq<Note>): JSResp {
    List(page, pageSize, keyword, Success(Window(table, ListRequest(page, pageSize, keyword))))
  }

  /** The double offset in action: two matching notes, page size 1. Page 2
      should hold the second note but comes back empty, and the reported
      total counts only the one row storage returned. */
  lemma DoubleOffsetExample(a: Note, b: Note)
    requires a.front == "a" && b.front == "b"
    ensures var l := ListFromTable(2, 1, "", [a, b]).data.value.list;
            l.data == [] && l.total == 1
    ensures Paging.Slice(Matching([a, b], ""), 2, 1) == [b]
  {
    var q := ListRequest(2, 1, "");
    assert Window([a, b], q) == [b];
    assert Matching([b], "") == [b];
    assert Matching([a, b], "") == [a, b];
    ListSkipsLaterPages(2, 1, "", [b]);
  }

  /** The query of the corrected listing: every matching row, from the start. */
  function ListCorrectedRequest(keyword: string): (q: ListQuery)
    ensures q.id == 0 && q.offset == 0 && q.limit < 0 && q.keyword == keyword
  {
    ListQuery(0, keyword, 0, -1)
  }

  /** The listing with one offset: fetch every matching row, filter, then
      paginate locally. Page `p` of the result is page `p` of the filtered
      table, and its totals describe the whole table. */
  function ListCorrected(page: int, pageSize: int, keyword: string, table: seq<Note>): (r: JSResp)
    ensures r.success == 1 && r.data.Some? && r.data.value.NoteListPayload?
    ensures var l := r.data.value.list;
            && l.total == |Matching(table, keyword)|
            && l.currentPage == Paging.NormalizePage(page)
            && l.pageSize == Paging.NormalizePageSize(pageSize)
            && l.data == Paging.Slice(Matching(table, keyword), l.currentPage, l.pageSize)
            && l.totalPages == Paging.CeilDiv(l.total, l.pageSize)
            && (|l.data| > 0 <==> l.currentPage <= l.totalPages)
  {
    var r := List(page, pageSize, keyword, Success(Window(table, ListCorrectedRequest(keyword))));
    Paging.SliceNonEmptyIff(Matching(table, keyword), Paging.NormalizePage(page), Paging.NormalizePageSize(pageSize));
    r
  }

  /** Reading pages 1 .. totalPages of the corrected listing returns every
      matching note once, in storage order. */
  lemma ListCorrectedReassembles(pageSize: int, keyword: string, table: seq<Note>)
    ensures var l := ListCorrected(1, pageSize, keyword, table).data.value.list;
            Paging.Pages(Matching(table, keyword), l.pageSize, l.totalPages) == Matching(table, keyword)
  {
    Paging.PagesReassemble(Matching(table, keyword), Paging.NormalizePageSize(pageSize));
  }

  /** The message a failed create reports: a fixed text for a uniqueness
      violation, the error's own text otherwise. */
  function CreateErrorMessage(e: Error): (msg: string)
    ensures Text.Contains(e.Text(), UniqueMarker) ==> msg == DuplicateMessage
    ensures !Text.Contains(e.Text(), UniqueMarker) ==> msg == e.Text()
  {
    if Text.Contains(e.Text(), UniqueMarker) then DuplicateMessage else e.Text()
  }

  /** The fields storage writes back into the record it is handed: the
      `autoCreateTime` and `autoUpdateTime` clock readings. */
  datatype Stamps = Stamps(createdAt: int, updatedAt: int)

  /** What a successful `storage.Create(&note)` or `storage.Update(&note)`
      leaves in the record: the primary key and the clock readings. */
  datatype Inserted = Inserted(id: int, stamps: Stamps)

  /** The record as storage left it: the sent note with the clock readings
      storage wrote into it. */
  function Stamped(n: Note, t: Stamps): (r: Note)
    ensures r.createdAt == t.createdAt && r.updatedAt == t.updatedAt
    ensures r.(createdAt := n.createdAt, updatedAt := n.updatedAt) == n
  {
    n.(createdAt := t.createdAt, updatedAt := t.updatedAt)
  }

  /** `Create(name)`: an empty front is refused without calling storage;
      otherwise `{Front: name}` is stored, and the record is returned as
      storage left it, with its new id and timestamps. */
  function Create(name: string, reply: Result<Inserted>): (r: Call<Note, JSResp>)
    ensures name == "" <==> r.request.None?
    ensures name == "" ==> r.response == JSResp(0, EmptyFrontMessage, None)
    ensures name != "" ==> r.request == Some(EmptyNote.(front := name))
    ensures r.response.success == 1 <==> name != "" && reply.Success?
    ensures r.response.success == 1 ==>
      && r.response.msg == ""
      && r.response.data == Some(NotePayload(Note(reply.value.id, name, "", "", [],
                                                  reply.value.stamps.createdAt,
                                                  reply.value.stamps.updatedAt)))
    ensures name != "" && reply.Failure? ==>
      r.response == JSResp(0, CreateErrorMessage(reply.error), None)
  {
    if name == "" then Call(None, JSResp(0, EmptyFrontMessage, None))
    else
      var sent := EmptyNote.(front := name);
      match reply
      case Success(w) => Call(Some(sent), JSResp(1, "", Some(NotePayload(Stamped(sent.(id := w.id), w.stamps)))))
      case Failure(e) => Call(Some(sent), JSResp(0, CreateErrorMessage(e), None))
  }

  /** A driver error mentioning the uniqueness constraint is reported with
      the fixed duplicate message. */
  lemma CreateDuplicateExample()
    ensures Create("hi", Failure(Raised("UNIQUE constraint failed: notes.front"))).response.msg == DuplicateMessage
  {
    var e := "UNIQUE constraint failed: notes.front";
    assert e[..|UniqueMarker|] == UniqueMarker;
    assert Text.IsPrefix(UniqueMarker, e);
  }

  /** Any other error text is reported verbatim; a text shorter than the
      marker cannot contain it. */
  lemma CreateOtherErrorExample()
    ensures Create("hi", Failure(Raised("disk I/O error"))).response.msg == "disk I/O error"
  {
    var e := Raised("disk I/O error");
    assert |e.Text()| < |UniqueMarker|;
    Text.ContainsNoLonger(e.Text(), UniqueMarker);
    assert CreateErrorMessage(e) == e.Text();
  }

  /** `Update(id, frontCont, backCont)`: an empty front is refused without
      calling storage; otherwise `{ID: id, Front: frontCont}` with `Back` set
      when `backCont` is non-empty is saved, and the record is returned as
      storage left it: with the id it holds afterwards (fresh when a save of
      id 0 inserts a new row) and the timestamps storage wrote. */
  function Update(id: int, front: string, back: string, reply: Result<Inserted>): (r: Call<Note, JSResp>)
    ensures front == "" <==> r.request.None?
    ensures front == "" ==> r.response == JSResp(0, EmptyFrontUpdateMessage, None)
    ensures front != "" ==> r.request.value.id == id && r.request.value.front == front
    ensures r.response.success == 1 <==> front != "" && reply.Success?
    ensures r.response.success == 1 ==>
      && r.response.msg == ""
      && r.response.data == Some(NotePayload(Note(reply.value.id, front, back, "", [],
                                                  reply.value.stamps.createdAt,
                                                  reply.value.stamps.updatedAt)))
    ensures front != "" && reply.Failure? ==> r.response == JSResp(0, reply.error.Text(), None)
  {
    if front == "" then Call(None, JSResp(0, EmptyFrontUpdateMessage, None))
    else
      var base := EmptyNote.(id := id, front := front);
      var sent := if back != "" then base.(back := back) else base;
      match reply
      case Success(w) => Call(Some(sent), JSResp(1, "", Some(NotePayload(Stamped(sent.(id := w.id), w.stamps)))))
      case Failure(e) => Call(Some(sent), JSResp(0, e.Text(), None))
  }

  /** Setting `Back` only when `backCont` is non-empty makes no difference:
      the zero value it would otherwise keep is the empty string, so the
      saved note always carries `backCont` and nothing else besides id and
      front. */
  lemma UpdateSendsBackVerbatim(id: int, front: string, back: string, reply: Result<Inserted>)
    requires front != ""
    ensures Update(id, front, back, reply).request == Some(Note(id, front, back, "", [], 0, 0))
  {
  }

  /** `Delete(id)`: success exactly when storage reports no error. */
  function Delete(id: int, reply: Outcome): (r: Call<int, JSResp>)
    ensures r.request == Some(id)
    ensures r.response.success == 1 <==> reply.Ok?
    ensures reply.Ok? ==> r.response == JSResp(1, "", None)
    ensures reply.Fail? ==> r.response == JSResp(0, reply.error.Text(), None)
  {
    match reply
    case Ok => Call(Some(id), JSResp(1, "", None))
    case Fail(e) => Call(Some(id), JSResp(0, e.Text(), None))
  }
}

=== FILE: paging.dfy ===
/** The pagination arithmetic both backend services share: normalising the
    requested page and page size, counting pages by ceiling division, and
    cutting one page out of an already filtered list. */
module Paging {
  import opened Types

  /** The page size used when the caller asks for less than one row. */
  const DefaultPageSize := 10

  /** A page number below 1 means the first page. */
  function NormalizePage(page: int): (p: int)
    ensures p >= 1
    ensures page >= 1 ==> p == page
    ensures page < 1 ==> p == 1
  {
    if page < 1 then 1 else page
  }

  /** A page size below 1 means the default page size. */
  function NormalizePageSize(pageSize: int): (n: int)
    ensures n >= 1
    ensures pageSize >= 1 ==> n == pageSize
    ensures pageSize < 1 ==> n == DefaultPageSize
  {
    if pageSize < 1 then DefaultPageSize else pageSize
  }

  /** `ceil(total / size)`: the least number of pages of `size` rows that
      hold `total` rows. */
  function CeilDiv(total: nat, size: int): (pages: nat)
    requires size >= 1
    ensures pages * size >= total
    ensures pages == 0 || (pages - 1) * size < total
    decreases total
  {
    if total == 0 then 0
    else if total <= size then 1
    else 1 + CeilDiv(total - size, size)
  }

  /** Index of the first row of `page`. */
  function Start(page: int, size: int): int {
    (page - 1) * size
  }

  function Min(a: int, b: int): int {
    if a < b then a else b
  }

  /** The rows of `page`: `xs[start:end]` with `end` clamped to the length,
      or nothing when `start` is past the end. */
  function Slice<T>(xs: seq<T>, page: int, size: int): (data: seq<T>)
    requires page >= 1 && size >= 1
    ensures |data| <= size
    ensures Start(page, size) >= |xs| ==> data == []
    ensures Start(page, size) < |xs| ==> |data| == Min(size, |xs| - Start(page, size))
    ensures forall i :: 0 <= i < |data| ==> data[i] == xs[Start(page, size) + i]
  {
    var start := Start(page, size);
    var end := if start + size > |xs| then |xs| else start + size;
    if start < |xs| then xs[start..end] else []
  }

  /** The list of page `page` of `filtered`, as both services build it. */
  function Paginate<T>(filtered: seq<T>, page: int, size: int): (r: PageList<T>)
    requires page >= 1 && size >= 1
    ensures r.total == |filtered|
    ensures r.totalPages * size >= r.total
    ensures r.totalPages == 0 || (r.totalPages - 1) * size < r.total
    ensures r.currentPage == page && r.pageSize == size
    ensures r.data == Slice(filtered, page, size)
  {
    PageList(|filtered|, CeilDiv(|filtered|, size), page, size, Slice(filtered, page, size))
  }

  /** A page has rows exactly when its number is at most the page count. */
  lemma SliceNonEmptyIff<T>(xs: seq<T>, page: int, size: int)
    requires page >= 1 && size >= 1
    ensures |Slice(xs, page, size)| > 0 <==> page <= CeilDiv(|xs|, size)
  {
    var pages := CeilDiv(|xs|, size);
    if page <= pages {
      assert (page - 1) * size <= (pages - 1) * size by {
        MulMonotone(page - 1, pages - 1, size);
      }
    } else {
      assert pages * size <= (page - 1) * size by {
        MulMonotone(pages, page - 1, size);
      }
    }
  }

  lemma MulMonotone(a: int, b: int, size: int)
    requires 0 <= a <= b && size >= 0
    ensures a * size <= b * size
  {
  }

  /** Pages `1..n` of `xs`, concatenated in order. */
  function Pages<T>(xs: seq<T>, size: int, n: nat): seq<T>
    requires size >= 1
  {
    if n == 0 then [] else Pages(xs, size, n - 1) + Slice(xs, n, size)
  }

  /** The first `n` pages are exactly the first `n * size` rows. */
  lemma {:induction false} PagesArePrefix<T>(xs: seq<T>, size: int, n: nat)
    requires size >= 1
    ensures Pages(xs, size, n) == xs[..Min(n * size, |xs|)]
  {
    if n > 0 {
      PagesArePrefix(xs, size, n - 1);
      var m := (n - 1) * size;
      NextPageStart(n, size);
      PageExtends(xs, m, size, Slice(xs, n, size));
    }
  }

  lemma NextPageStart(n: int, size: int)
    ensures Start(n, size) == (n - 1) * size
    ensures n * size == (n - 1) * size + size
  {
  }

  /** Appending the page that starts at row `m` to the first `m` rows gives
      the first `m + size` rows. */
  lemma PageExtends<T>(xs: seq<T>, m: int, size: int, page: seq<T>)
    requires m >= 0 && size >= 1
    requires m >= |xs| ==> page == []
    requires m < |xs| ==> |page| == Min(size, |xs| - m)
    requires forall i :: 0 <= i < |page| ==> page[i] == xs[m + i]
    ensures xs[..Min(m, |xs|)] + page == xs[..Min(m + size, |xs|)]
  {
    if m < |xs| {
      assert page == xs[m..Min(m + size, |xs|)];
    }
  }

  /** Reading every page from 1 to the page count returns the whole list,
      each row once and in order. */
  lemma PagesReassemble<T>(xs: seq<T>, size: int)
    requires size >= 1
    ensures Pages(xs, size, CeilDiv(|xs|, size)) == xs
  {
    var n := CeilDiv(|xs|, size);
    PagesArePrefix(xs, size, n);
    assert Min(n * size, |xs|) == |xs|;
  }
}

=== FILE: seqs.dfy ===
/** Order-preserving filtering, the one list operation every component here
    uses (keyword search, delete-by-id, category selection). */
module Seqs {

  /** `a` can be obtained from `b` by deleting elements, i.e. `a` lists some
      of `b`'s elements in `b`'s order. (Greedy matching is complete.) */
  predicate Subsequence<T(==,!new)>(a: seq<T>, b: seq<T>)
    decreases |b|
  {
    if |a| == 0 then true
    else if |b| == 0 then false
    else if a[0] == b[0] then Subsequence(a[1..], b[1..])
    else Subsequence(a, b[1..])
  }

  /** The elements of `xs` that satisfy `keep`, in their original order.
      `FilterCounts` adds that every occurrence of a kept value survives and
      no other does, which with `Subsequence` determines the result. */
  function Filter<T(==,!new)>(xs: seq<T>, keep: T -> bool): (r: seq<T>)
    ensures |r| <= |xs|
    ensures forall x :: x in r <==> x in xs && keep(x)
    ensures Subsequence(r, xs)
  {
    if |xs| == 0 then []
    else if keep(xs[0]) then [xs[0]] + Filter(xs[1..], keep)
    else Filter(xs[1..], keep)
  }

  /** Filtering keeps each value exactly as often as the input holds it,
      if it passes the test, and drops it completely otherwise. */
  lemma {:induction false} FilterCounts<T(!new)>(xs: seq<T>, keep: T -> bool)
    ensures forall x :: multiset(Filter(xs, keep))[x] == if keep(x) then multiset(xs)[x] else 0
  {
    if |xs| > 0 {
      assert xs == [xs[0]] + xs[1..];
      FilterCounts(xs[1..], keep);
    }
  }

  /** Filtering distributes over concatenation, which together with
      `FilterKeepsAll` and `FilterDropsNone` pins `Filter` down completely. */
  lemma {:induction false} FilterConcat<T(!new)>(a: seq<T>, b: seq<T>, keep: T -> bool)
    ensures Filter(a + b, keep) == Filter(a, keep) + Filter(b, keep)
  {
    if |a| == 0 {
      assert a + b == b;
    } else {
      assert (a + b)[1..] == a[1..] + b;
      FilterConcat(a[1..], b, keep);
    }
  }

  /** When every element is kept, the result is the input itself. */
  lemma {:induction false} FilterKeepsAll<T(!new)>(xs: seq<T>, keep: T -> bool)
    requires forall x :: x in xs ==> keep(x)
    ensures Filter(xs, keep) == xs
  {
    if |xs| > 0 {
      assert forall x :: x in xs[1..] ==> x in xs;
      FilterKeepsAll(xs[1..], keep);
      assert [xs[0]] + xs[1..] == xs;
    }
  }

  /** When no element is kept, the result is empty. */
  lemma FilterDropsNone<T(!new)>(xs: seq<T>, keep: T -> bool)
    requires forall x :: x in xs ==> !keep(x)
    ensures Filter(xs, keep) == []
  {
  }

  /** Filtering a filtered list with the same test changes nothing. */
  lemma FilterIdempotent<T(!new)>(xs: seq<T>, keep: T -> bool)
    ensures Filter(Filter(xs, keep), keep) == Filter(xs, keep)
  {
    FilterKeepsAll(Filter(xs, keep), keep);
  }

  /** Every element of a subsequence sits somewhere in the sequence. */
  lemma {:induction false} SubsequenceMember<T(!new)>(a: seq<T>, b: seq<T>, i: int)
    requires Subsequence(a, b) && 0 <= i < |a|
    ensures exists j :: 0 <= j < |b| && b[j] == a[i]
    decreases |b|
  {
    if a[0] == b[0] {
      if i > 0 {
        SubsequenceMember(a[1..], b[1..], i - 1);
        var j :| 0 <= j < |b[1..]| && b[1..][j] == a[1..][i - 1];
        assert b[j + 1] == a[i];
      }
    } else {
      SubsequenceMember(a, b[1..], i);
      var j :| 0 <= j < |b[1..]| && b[1..][j] == a[i];
      assert b[j + 1] == a[i];
    }
  }
}

=== FILE: speaking_practice.dfy ===
/** The speaking-practice quiz: a card index, an answer-shown flag, a
    playing flag and a countdown. The three timer callbacks (the one-second
    tick, "question time is up" and "answer time is up") are events; they
    are armed only while the quiz is playing. */
module SpeakingPractice {
  import opened Types

  datatype Sentence = Sentence(id: int, question: string, answer: string, audioUrl: Option<string>)

  /** The practice deck. */
  const MockData: seq<Sentence> := [
    Sentence(1, "你好", "こんにちは", Some("/audio/konnichiwa.mp3")),
    Sentence(2, "谢谢", "ありがとう", Some("/audio/arigatou.mp3")),
    Sentence(3, "再见", "さようなら", Some("/audio/sayounara.mp3"))
  ]

  /** The component's props, in milliseconds. */
  datatype Config = Config(questionTimeout: int, answerTimeout: int)

  const Defaults := Config(3000, 4000)

  /** What is on screen, plus the timers that are pending. The countdown
      is a JavaScript number: `ms / 1000` need not be whole.
      `questionArmed` says the effect's question timeout is set and has not
      fired; `pendingAnswers` counts answer timeouts set by a fired question
      timeout and not yet fired themselves. */
  datatype State = State(currentIndex: int, showAnswer: bool, isPlaying: bool, timer: real,
                         questionArmed: bool, pendingAnswers: nat)

  function Seconds(ms: int): real {
    ms as real / 1000.0
  }

  /** JavaScript's `%`: `a` minus a multiple of `n`, truncating the quotient
      toward zero, so the remainder takes the sign of the dividend. */
  function JsRem(a: int, n: int): (r: int)
    requires n > 0
    ensures (a - r) % n == 0
    ensures a >= 0 ==> 0 <= r < n && r == a % n
    ensures a < 0 ==> -n < r <= 0
  {
    RemainderIsOffMultiple(if a >= 0 then a else -a, n);
    if a >= 0 then a % n else -((-a) % n)
  }

  /** Taking away the remainder, or adding it to the negation, leaves a
      multiple of `n`. */
  lemma RemainderIsOffMultiple(x: int, n: int)
    requires n > 0
    ensures (x - x % n) % n == 0
    ensures (-x + x % n) % n == 0
  {
    var q := x / n;
    assert x - x % n == n * q;
    MultipleRem(n, q);
    assert -x + x % n == n * -q;
    MultipleRem(n, -q);
  }

  /** A multiple of `n` leaves no remainder. */
  lemma MultipleRem(n: int, k: int)
    requires n > 0
    ensures (n * k) % n == 0
  {
    var y := n * k;
    var d := k - y / n;
    assert y % n == n * d;
  }

  /** The state a freshly mounted component starts in. */
  function Init(cfg: Config): (s: State)
    ensures s.currentIndex == 0 && !s.showAnswer && !s.isPlaying
    ensures s.timer == Seconds(cfg.questionTimeout)
    ensures !s.questionArmed && s.pendingAnswers == 0
  {
    State(0, false, false, Seconds(cfg.questionTimeout), false, 0)
  }

  /** The one-second interval: count down, never below zero. */
  function Tick(s: State): (r: State)
    ensures r.timer >= 0.0
    ensures s.timer >= 1.0 ==> r.timer == s.timer - 1.0
    ensures s.timer <= 1.0 ==> r.timer == 0.0
    ensures r.(timer := s.timer) == s
  {
    s.(timer := if s.timer - 1.0 > 0.0 then s.timer - 1.0 else 0.0)
  }

  /** The question timeout: reveal the answer and restart the countdown
      at the answer duration. */
  function QuestionElapsed(cfg: Config, s: State): (r: State)
    ensures r.showAnswer && r.timer == Seconds(cfg.answerTimeout)
    ensures r.(showAnswer := s.showAnswer, timer := s.timer) == s
  {
    s.(showAnswer := true, timer := Seconds(cfg.answerTimeout))
  }

  /** The answer timeout: move to the next card, wrapping after the last,
      hide the answer and restart the countdown at the question duration. */
  function AnswerElapsed(cfg: Config, count: int, s: State): (r: State)
    requires count > 0
    ensures 0 <= s.currentIndex < count ==>
              0 <= r.currentIndex < count
              && (s.currentIndex < count - 1 ==> r.currentIndex == s.currentIndex + 1)
              && (s.currentIndex == count - 1 ==> r.currentIndex == 0)
    ensures !r.showAnswer && r.timer == Seconds(cfg.questionTimeout)
    ensures r.(currentIndex := s.currentIndex, showAnswer := s.showAnswer, timer := s.timer) == s
  {
    s.(currentIndex := JsRem(s.currentIndex + 1, count), showAnswer := false,
       timer := Seconds(cfg.questionTimeout))
  }

  /** The play/pause button flips `isPlaying` and nothing else. */
  function TogglePlay(s: State): (r: State)
    ensures r.isPlaying == !s.isPlaying
    ensures r.(isPlaying := s.isPlaying) == s
  {
    s.(isPlaying := !s.isPlaying)
  }

  /** The reset button: back to the first card, stopped. It sets the four
      displayed values only; pending timers are the effect's business. */
  function Reset(cfg: Config, s: State): (r: State)
    ensures r.(questionArmed := false, pendingAnswers := 0) == Init(cfg)
    ensures r.questionArmed == s.questionArmed && r.pendingAnswers == s.pendingAnswers
  {
    s.(currentIndex := 0, showAnswer := false, isPlaying := false, timer := Seconds(cfg.questionTimeout))
  }

  datatype Event = TickEvent | QuestionTimeout | AnswerTimeout | Toggle | ResetEvent

  predicate IsTimerEvent(e: Event) {
    e == TickEvent || e == QuestionTimeout || e == AnswerTimeout
  }

  /** Whether the callback behind an event exists: the interval runs while
      playing, each timeout fires once after it was set, and the buttons are
      always there. */
  predicate Enabled(s: State, e: Event) {
    match e
    case TickEvent => s.isPlaying
    case QuestionTimeout => s.questionArmed
    case AnswerTimeout => s.pendingAnswers > 0
    case Toggle => true
    case ResetEvent => true
  }

  /** The callback's own updates, and the fired timer consumed (a fired
      question timeout sets an answer timeout). */
  function Handle(cfg: Config, count: int, s: State, e: Event): (r: State)
    requires count > 0 && Enabled(s, e)
    ensures e == TickEvent ==> r.(timer := s.timer) == s && r.timer >= 0.0
    ensures e == QuestionTimeout ==>
      && r.showAnswer && !r.questionArmed && r.pendingAnswers == s.pendingAnswers + 1
      && r.currentIndex == s.currentIndex && r.isPlaying == s.isPlaying
    ensures e == AnswerTimeout ==>
      && !r.showAnswer && r.pendingAnswers == s.pendingAnswers - 1
      && r.currentIndex == JsRem(s.currentIndex + 1, count)
      && r.isPlaying == s.isPlaying && r.questionArmed == s.questionArmed
    ensures e == Toggle ==> r.isPlaying == !s.isPlaying && r.(isPlaying := s.isPlaying) == s
    ensures e == ResetEvent ==>
      && r.currentIndex == 0 && !r.isPlaying && !r.showAnswer
      && r.questionArmed == s.questionArmed && r.pendingAnswers == s.pendingAnswers
  {
    match e
    case TickEvent => Tick(s)
    case QuestionTimeout =>
      QuestionElapsed(cfg, s).(questionArmed := false, pendingAnswers := s.pendingAnswers + 1)
    case AnswerTimeout => AnswerElapsed(cfg, count, s).(pendingAnswers := s.pendingAnswers - 1)
    case Toggle => TogglePlay(s)
    case ResetEvent => Reset(cfg, s)
  }

  /** The effect keyed on `currentIndex` and `isPlaying`: when either
      changed, its cleanup clears the question timeout (and the interval) and
      a new question timeout is set if playing. The cleanup as written does
      not know the answer timeout; `cancelsAnswer` selects the cleanup that
      clears it too. */
  function Rerun(before: State, after: State, cancelsAnswer: bool): (r: State)
    ensures after.currentIndex == before.currentIndex && after.isPlaying == before.isPlaying ==> r == after
    ensures after.currentIndex != before.currentIndex || after.isPlaying != before.isPlaying ==>
      && r.questionArmed == after.isPlaying
      && r.pendingAnswers == (if cancelsAnswer then 0 else after.pendingAnswers)
      && r.(questionArmed := after.questionArmed, pendingAnswers := after.pendingAnswers) == after
  {
    if after.currentIndex != before.currentIndex || after.isPlaying != before.isPlaying then
      after.(questionArmed := after.isPlaying,
             pendingAnswers := if cancelsAnswer then 0 else after.pendingAnswers)
    else after
  }

  /** One event, then the effect. An event whose callback does not exist
      changes nothing. */
  function StepWith(cfg: Config, count: int, s: State, e: Event, cancelsAnswer: bool): (r: State)
    requires count > 0
    ensures !Enabled(s, e) ==> r == s
    ensures Enabled(s, e) ==>
      var h := Handle(cfg, count, s, e);
      && r.currentIndex == h.currentIndex && r.isPlaying == h.isPlaying
      && r.showAnswer == h.showAnswer && r.timer == h.timer
      && (h.currentIndex != s.currentIndex || h.isPlaying != s.isPlaying ==>
            r.questionArmed == r.isPlaying && (cancelsAnswer ==> r.pendingAnswers == 0))
  {
    if Enabled(s, e) then Rerun(s, Handle(cfg, count, s, e), cancelsAnswer) else s
  }

  function RunWith(cfg: Config, count: int, s: State, events: seq<Event>, cancelsAnswer: bool): State
    requires count > 0
    decreases |events|
  {
    if |events| == 0 then s
    else RunWith(cfg, count, StepWith(cfg, count, s, events[0], cancelsAnswer), events[1..], cancelsAnswer)
  }

  /** The component as written: any run from a valid state stays valid. */
  function Run(cfg: Config, count: int, s: State, events: seq<Event>): (r: State)
    requires count > 0
    ensures ValidConfig(cfg) && Valid(count, s, false) ==> Valid(count, r, false)
  {
    if ValidConfig(cfg) && Valid(count, s, false) then
      RunPreservesValid(cfg, count, s, events, false);
      RunWith(cfg, count, s, events, false)
    else RunWith(cfg, count, s, events, false)
  }

  /** The component with the answer timeout cleared by the effect's cleanup:
      any run from a valid state stays valid, and in particular no answer
      timeout is ever pending while the quiz is stopped. */
  function RunCorrected(cfg: Config, count: int, s: State, events: seq<Event>): (r: State)
    requires count > 0
    ensures ValidConfig(cfg) && Valid(count, s, true) ==>
      Valid(count, r, true) && (!r.isPlaying ==> r.pendingAnswers == 0)
  {
    if ValidConfig(cfg) && Valid(count, s, true) then
      RunPreservesValid(cfg, count, s, events, true);
      RunWith(cfg, count, s, events, true)
    else RunWith(cfg, count, s, events, true)
  }

  /** The state invariant: a valid card index, a non-negative countdown, and
      a question timeout only while playing. The corrected component also
      has no answer timeout pending while stopped. */
  predicate Valid(count: int, s: State, cancelsAnswer: bool) {
    && 0 <= s.currentIndex < count
    && s.timer >= 0.0
    && (s.questionArmed ==> s.isPlaying)
    && (cancelsAnswer ==> (s.pendingAnswers > 0 ==> s.isPlaying))
  }

  predicate ValidConfig(cfg: Config) {
    cfg.questionTimeout >= 0 && cfg.answerTimeout >= 0
  }

  lemma StepPreservesValid(cfg: Config, count: int, s: State, e: Event, cancelsAnswer: bool)
    requires count > 0 && ValidConfig(cfg) && Valid(count, s, cancelsAnswer)
    ensures Valid(count, StepWith(cfg, count, s, e, cancelsAnswer), cancelsAnswer)
  {
  }

  /** Every reachable state satisfies the invariant. */
  lemma {:induction false} RunPreservesValid(cfg: Config, count: int, s: State, events: seq<Event>, cancelsAnswer: bool)
    requires count > 0 && ValidConfig(cfg) && Valid(count, s, cancelsAnswer)
    ensures Valid(count, RunWith(cfg, count, s, events, cancelsAnswer), cancelsAnswer)
    decreases |events|
  {
    if |events| > 0 {
      StepPreservesValid(cfg, count, s, events[0], cancelsAnswer);
      RunPreservesValid(cfg, count, StepWith(cfg, count, s, events[0], cancelsAnswer), events[1..], cancelsAnswer);
    }
  }

  /** As written, a reset during the answer phase does not stop the quiz
      for good: the answer timeout still fires and moves the stopped quiz to
      the second card. */
  lemma StrayAdvanceAfterReset()
    ensures Run(Defaults, |MockData|, Init(Defaults), [Toggle, QuestionTimeout, ResetEvent])
         == State(0, false, false, 3.0, false, 1)
    ensures Run(Defaults, |MockData|, Init(Defaults), [Toggle, QuestionTimeout, ResetEvent, AnswerTimeout])
         == State(1, false, false, 3.0, false, 0)
  {
    var es := [Toggle, QuestionTimeout, ResetEvent, AnswerTimeout];
    assert es[1..] == [QuestionTimeout, ResetEvent, AnswerTimeout];
    assert es[1..][1..] == [ResetEvent, AnswerTimeout];
    assert es[1..][1..][1..] == [AnswerTimeout];
    assert es[..3] == [Toggle, QuestionTimeout, ResetEvent];
    assert es[..3][1..] == [QuestionTimeout, ResetEvent];
    assert es[..3][1..][1..] == [ResetEvent];
  }

  /** With the answer timeout cancelled, a stopped quiz is frozen: no timer
      callback exists, so any events but the buttons change nothing. */
  lemma {:induction false} PausedIsFrozen(cfg: Config, count: int, s: State, events: seq<Event>)
    requires count > 0 && !s.isPlaying && Valid(count, s, true)
    requires forall i :: 0 <= i < |events| ==> IsTimerEvent(events[i])
    ensures RunCorrected(cfg, count, s, events) == s
    decreases |events|
  {
    if |events| > 0 {
      assert !Enabled(s, events[0]);
      PausedIsFrozen(cfg, count, s, events[1..]);
    }
  }

  /** With the answer timeout cancelled, a reset lands on the initial state
      and stays there until a button is pressed. */
  lemma ResetSticks(cfg: Config, count: int, s: State, events: seq<Event>)
    requires count > 0 && ValidConfig(cfg) && Valid(count, s, true)
    requires forall i :: 0 <= i < |events| ==> IsTimerEvent(events[i])
    ensures RunCorrected(cfg, count, s, [ResetEvent] + events) == Init(cfg)
  {
    assert ([ResetEvent] + events)[1..] == events;
    PausedIsFrozen(cfg, count, Init(cfg), events);
  }

  /** While playing, a question timeout then an answer timeout show the next
      card's question with a fresh question timeout, in both variants. */
  lemma CycleAdvances(cfg: Config, count: int, s: State, cancelsAnswer: bool)
    requires count > 1 && 0 <= s.currentIndex < count && s.isPlaying && s.questionArmed
    requires s.pendingAnswers == 0
    ensures var r := RunWith(cfg, count, s, [QuestionTimeout, AnswerTimeout], cancelsAnswer);
            && r.currentIndex == (if s.currentIndex == count - 1 then 0 else s.currentIndex + 1)
            && !r.showAnswer && r.timer == Seconds(cfg.questionTimeout)
            && r.isPlaying && r.questionArmed && r.pendingAnswers == 0
  {
    assert [QuestionTimeout, AnswerTimeout][1..] == [AnswerTimeout];
  }

  /** With a one-card deck the as-written quiz stalls after one cycle: the
      next index is the current one, so the effect does not rerun and no
      question timeout is armed again, although the quiz is still playing. */
  lemma OneCardStalls(cfg: Config, s: State)
    requires s.currentIndex == 0 && s.isPlaying && s.questionArmed && s.pendingAnswers == 0
    ensures var r := Run(cfg, 1, s, [QuestionTimeout, AnswerTimeout]);
            && r.currentIndex == 0 && r.isPlaying && !r.showAnswer
            && !r.questionArmed && r.pendingAnswers == 0
            && !Enabled(r, QuestionTimeout) && !Enabled(r, AnswerTimeout)
  {
    assert [QuestionTimeout, AnswerTimeout][1..] == [AnswerTimeout];
  }

  /** `k` answer timeouts in a row. */
  function Advance(cfg: Config, count: int, s: State, k: nat): State
    requires count > 0
  {
    if k == 0 then s else AnswerElapsed(cfg, count, Advance(cfg, count, s, k - 1))
  }

  /** `a mod n` for a non-negative `a`, by repeated subtraction. */
  function Wrap(a: nat, n: int): (r: nat)
    requires n > 0
    ensures r < n
    decreases a
  {
    if a < n then a else Wrap(a - n, n)
  }

  /** Wrapping the successor steps the wrapped value, back to 0 after n - 1. */
  lemma {:induction false} WrapSucc(a: nat, n: int)
    requires n > 0
    ensures Wrap(a + 1, n) == if Wrap(a, n) == n - 1 then 0 else Wrap(a, n) + 1
    decreases a
  {
    if a + 1 >= n && a >= n {
      WrapSucc(a - n, n);
    }
  }

  /** After `k` advances the index has moved `k` places round the deck. */
  lemma {:induction false} AdvanceIndex(cfg: Config, count: int, s: State, k: nat)
    requires count > 0 && 0 <= s.currentIndex < count
    ensures Advance(cfg, count, s, k).currentIndex == Wrap(s.currentIndex + k, count)
  {
    if k > 0 {
      AdvanceIndex(cfg, count, s, k - 1);
      WrapSucc(s.currentIndex + k - 1, count);
    }
  }

  /** A full round of the deck returns to the starting card. */
  lemma AdvanceWrapsAround(cfg: Config, count: int, s: State)
    requires count > 0 && 0 <= s.currentIndex < count
    ensures Advance(cfg, count, s, count).currentIndex == s.currentIndex
  {
    AdvanceIndex(cfg, count, s, count);
  }

  /** Toggling twice is the identity. */
  lemma ToggleInvolution(s: State)
    ensures TogglePlay(TogglePlay(s)) == s
  {
  }

  /** Reset forgets the displayed state it was given. */
  lemma ResetIdempotent(cfg: Config, s: State)
    ensures Reset(cfg, Reset(cfg, s)) == Reset(cfg, s)
  {
  }

  /** Pausing and resuming keeps the card, the phase and the countdown, and
      leaves the quiz playing with a question timeout set. */
  lemma PauseResumeKeepsProgress(cfg: Config, count: int, s: State, cancelsAnswer: bool)
    requires count > 0 && s.isPlaying
    ensures var r := RunWith(cfg, count, s, [Toggle, Toggle], cancelsAnswer);
            && r.currentIndex == s.currentIndex && r.showAnswer == s.showAnswer
            && r.timer == s.timer && r.isPlaying && r.questionArmed
  {
    assert [Toggle, Toggle][1..] == [Toggle];
  }

  /** With the default timings and the three-card deck: start, the question
      times out (answer shown, 4 s), the answer times out (second card,
      answer hidden, 3 s). */
  lemma DefaultScenario()
    ensures Run(Defaults, |MockData|, Init(Defaults), [Toggle, QuestionTimeout])
         == State(0, true, true, 4.0, false, 1)
    ensures Run(Defaults, |MockData|, Init(Defaults), [Toggle, QuestionTimeout, AnswerTimeout])
         == State(1, false, true, 3.0, true, 0)
  {
    assert [Toggle, QuestionTimeout][1..] == [QuestionTimeout];
    assert [Toggle, QuestionTimeout, AnswerTimeout][1..] == [QuestionTimeout, AnswerTimeout];
    assert [QuestionTimeout, AnswerTimeout][1..] == [AnswerTimeout];
  }
}

=== FILE: tag_management.dfy ===
/** `TagManagement`: the tag list editor that talks to the tag service.
    Renames stay local; a new tag is requested from the service and added
    when the response arrives. The response callback closes over the tag
    list and the input as they were at submit time, so both are carried in
    the request. Notifications are returned as values. */
module TagManagement {
  import opened Types
  import Text
  import NameEditor

  type Item = NameEditor.Item

  /** The component's state; its unused `nextId` is left out. */
  datatype Editor = Editor(tags: seq<Item>, input: string, editing: Option<string>)

  /** A pending `tagApi.Create(name)` with the values its callback captured. */
  datatype CreateRequest = CreateRequest(name: string, snapshot: seq<Item>)

  /** The remote response object: `success` may be absent, and `data` (the
      created tag) may be missing, in which case reading `data.data.id`
      throws. */
  datatype CreateResponse = CreateResponse(success: Option<int>, msg: string, dataId: Option<int>)

  datatype Severity = ErrorNotice | SuccessNotice
  datatype Notice = Notice(severity: Severity, text: string)

  const CreatedMessage := "标签创建成功"

  /** `handleSubmit`. A blank input does nothing. In editing mode every tag
      with the edited name is renamed locally, with no remote call, and the
      input and editing mode are left as they are. Otherwise a create request
      for the input is sent and the state is unchanged until it answers. */
  function Submit(e: Editor): (r: (Editor, Option<CreateRequest>))
    ensures Text.IsBlank(e.input) ==> r == (e, None)
    ensures !Text.IsBlank(e.input) && NameEditor.IsEditing(e.editing) ==>
      && r.1 == None
      && r.0 == e.(tags := NameEditor.Rename(e.tags, e.editing.value, e.input))
    ensures !Text.IsBlank(e.input) && !NameEditor.IsEditing(e.editing) ==>
      r == (e, Some(CreateRequest(e.input, e.tags)))
  {
    if Text.IsBlank(e.input) then (e, None)
    else if NameEditor.IsEditing(e.editing) then
      (e.(tags := NameEditor.Rename(e.tags, e.editing.value, e.input)), None)
    else (e, Some(CreateRequest(e.input, e.tags)))
  }

  /** The create callback. `success` present and 0: show the message and
      change nothing. A response without `data`: the callback throws and
      nothing changes. Otherwise the new tag is appended to the list captured
      at submit time, and the input and editing mode are cleared. */
  function OnCreated(e: Editor, req: CreateRequest, resp: CreateResponse): (r: (Editor, Option<Notice>))
    ensures resp.success == Some(0) ==> r == (e, Some(Notice(ErrorNotice, resp.msg)))
    ensures resp.success != Some(0) && resp.dataId.None? ==> r == (e, None)
    ensures resp.success != Some(0) && resp.dataId.Some? ==>
      && r.0.tags == req.snapshot + [NameEditor.Item(resp.dataId.value, req.name)]
      && r.0.input == "" && r.0.editing == None
      && r.1 == Some(Notice(SuccessNotice, CreatedMessage))
  {
    if resp.success == Some(0) then (e, Some(Notice(ErrorNotice, resp.msg)))
    else match resp.dataId
      case None => (e, None)
      case Some(id) =>
        (Editor(req.snapshot + [NameEditor.Item(id, req.name)], "", None), Some(Notice(SuccessNotice, CreatedMessage)))
  }

  /** A successful create issued from an idle editor lands the new tag after
      the existing ones, under the name that was typed. */
  lemma SubmitThenCreated(e: Editor, id: int)
    requires !Text.IsBlank(e.input) && !NameEditor.IsEditing(e.editing)
    ensures var (e1, req) := Submit(e);
            var (e2, notice) := OnCreated(e1, req.value, CreateResponse(Some(1), "", Some(id)));
            && e2.tags == e.tags + [NameEditor.Item(id, e.input)]
            && e2.input == "" && e2.editing == None
            && notice == Some(Notice(SuccessNotice, CreatedMessage))
  {
  }

  /** The callback does not look at the current list: a tag deleted between
      submit and response comes back. */
  lemma CreatedRestoresSnapshot(e: Editor, req: CreateRequest, id: int)
    ensures OnCreated(e, req, CreateResponse(None, "", Some(id))).0.tags[..|req.snapshot|] == req.snapshot
  {
  }

  /** `handleEdit`: put the tag's name in the input and edit by that name. */
  function Edit(e: Editor, tag: Item): (r: Editor)
    ensures r.input == tag.name && r.editing == Some(tag.name) && r.tags == e.tags
  {
    e.(input := tag.name, editing := Some(tag.name))
  }

  /** The cancel button: clear the input and leave editing mode. */
  function Cancel(e: Editor): (r: Editor)
    ensures r.tags == e.tags && r.input == "" && r.editing == None
  {
    e.(input := "", editing := None)
  }

  /** Unlike the category editor, a rename here keeps the form in editing
      mode with the new name typed in, still editing by the old name. */
  lemma RenameKeepsEditing(e: Editor, tag: Item, name: string)
    requires tag.name != "" && !Text.IsBlank(name)
    ensures var (r, req) := Submit(Edit(e, tag).(input := name));
            && req == None
            && r.input == name && r.editing == Some(tag.name)
            && r.tags == NameEditor.Rename(e.tags, tag.name, name)
  {
  }

  /** `handleDelete`: send the delete request for the tag's id and drop the
      id from the list at once, whatever the service answers. */
  function Delete(e: Editor, tag: Item): (r: (Editor, int))
    ensures r.1 == tag.id
    ensures r.0.tags == NameEditor.WithoutId(e.tags, tag.id)
    ensures r.0.input == e.input && r.0.editing == e.editing
  {
    (e.(tags := NameEditor.WithoutId(e.tags, tag.id)), tag.id)
  }
}

=== FILE: tag_service.dfy ===
/** `TagServiceImpl`: lists tags page by page with a keyword filter, and
    validates names before handing creates and updates to storage. Storage
    is abstract: its answer to each call is a parameter. */
module TagService {
  import opened Types
  import Seqs
  import Text
  import Paging
  import MemoryTagStorage

  /** The error `Create` and `Update` return for an empty name (a fresh
      error value whose text equals `ErrTagNameEmpty`'s). */
  const EmptyName := Raised("tag name cannot be empty")

  lemma EmptyNameText()
    ensures EmptyName.Text() == TagNameEmpty.Text()
  {
  }

  /** The tags the keyword keeps, in storage order. */
  function Matching(tags: seq<Tag>, keyword: string): (r: seq<Tag>)
    ensures forall t :: t in r <==> t in tags && Text.Matches(keyword, t.name)
    ensures forall t :: multiset(r)[t] == if Text.Matches(keyword, t.name) then multiset(tags)[t] else 0
    ensures Seqs.Subsequence(r, tags)
  {
    Seqs.FilterCounts(tags, (t: Tag) => Text.Matches(keyword, t.name));
    Seqs.Filter(tags, (t: Tag) => Text.Matches(keyword, t.name))
  }

  /** `List(page, pageSize, keyword)`; `stored` is what `storage.List()`
      returned. */
  function List(page: int, pageSize: int, keyword: string, stored: Result<seq<Tag>>): (r: Result<TagList>)
    ensures stored.Failure? ==> r == Failure(stored.error)
    ensures stored.Success? ==> r.Success?
    ensures stored.Success? ==>
      var l := r.value;
      && l.currentPage == Paging.NormalizePage(page)
      && l.pageSize == Paging.NormalizePageSize(pageSize)
      && l.total == |Matching(stored.value, keyword)|
      && l.totalPages * l.pageSize >= l.total
      && (l.totalPages == 0 || (l.totalPages - 1) * l.pageSize < l.total)
      && |l.data| <= l.pageSize
      && (forall t :: t in l.data ==> t in stored.value && Text.Matches(keyword, t.name))
      && l.data == Paging.Slice(Matching(stored.value, keyword), l.currentPage, l.pageSize)
  {
    var p := Paging.NormalizePage(page);
    var size := Paging.NormalizePageSize(pageSize);
    match stored
    case Failure(e) => Failure(e)
    case Success(tags) => Success(Paging.Paginate(Matching(tags, keyword), p, size))
  }

  /** The pages of a listing, read from the first to the reported page
      count, put back together the whole filtered list in order. */
  lemma ListPagesReassemble(pageSize: int, keyword: string, tags: seq<Tag>)
    ensures var size := Paging.NormalizePageSize(pageSize);
            var n := List(1, pageSize, keyword, Success(tags)).value.totalPages;
            Paging.Pages(Matching(tags, keyword), size, n) == Matching(tags, keyword)
  {
    Paging.PagesReassemble(Matching(tags, keyword), Paging.NormalizePageSize(pageSize));
  }

  /** A page of a successful listing has rows exactly when its (normalised)
      number is at most the reported page count. */
  lemma ListPageNonEmptyIff(page: int, pageSize: int, keyword: string, tags: seq<Tag>)
    ensures var l := List(page, pageSize, keyword, Success(tags)).value;
            |l.data| > 0 <==> l.currentPage <= l.totalPages
  {
    Paging.SliceNonEmptyIff(Matching(tags, keyword), Paging.NormalizePage(page), Paging.NormalizePageSize(pageSize));
  }

  /** The keyword filter over the unit tests' two tags. */
  lemma MatchingTestTags()
    ensures Matching([Tag(1, "tag1"), Tag(2, "tag2")], "tag1") == [Tag(1, "tag1")]
    ensures Matching([Tag(1, "tag1"), Tag(2, "tag2")], "") == [Tag(1, "tag1"), Tag(2, "tag2")]
  {
    var tags := [Tag(1, "tag1"), Tag(2, "tag2")];
    assert Text.Lower("tag1") == "tag1";
    assert Text.Lower("tag2") == "tag2";
    assert Text.Contains("tag1", "tag1") by { Text.ContainsSelf("tag1"); }
    assert !Text.Contains("tag2", "tag1") by {
      assert "tag2"[..4][3] != "tag1"[3];
    }
    assert tags[1..] == [Tag(2, "tag2")];
    assert Matching(tags, "tag1") == [Tag(1, "tag1")];
  }

  /** The three listing cases of the unit tests. */
  lemma ListExamples()
    ensures List(1, 2, "", Success([])) == Success(PageList(0, 0, 1, 2, []))
    ensures List(1, 2, "", Success([Tag(1, "tag1"), Tag(2, "tag2")]))
         == Success(PageList(2, 1, 1, 2, [Tag(1, "tag1"), Tag(2, "tag2")]))
    ensures List(1, 2, "tag1", Success([Tag(1, "tag1"), Tag(2, "tag2")]))
         == Success(PageList(1, 1, 1, 2, [Tag(1, "tag1")]))
  {
    var tags := [Tag(1, "tag1"), Tag(2, "tag2")];
    MatchingTestTags();
    assert Paging.Slice(tags, 1, 2) == tags[0..2] == tags;
  }

  /** `Create(name)`: an empty name is refused before storage is called;
      otherwise `{Name: name}` goes to storage and comes back with the id
      storage assigned, or storage's error is passed on. */
  function Create(name: string, reply: CreateReply): (r: Call<Tag, Result<Tag>>)
    ensures name == "" <==> r.request.None?
    ensures name == "" ==> r.response == Failure(EmptyName)
    ensures name != "" ==> r.request == Some(Tag(0, name))
    ensures name != "" ==> (r.response.Success? <==> reply.Assigned?)
    ensures r.response.Success? ==> r.response.value == Tag(reply.id, name)
    ensures name != "" && reply.CreateFailed? ==> r.response == Failure(reply.error)
  {
    if name == "" then Call(None, Failure(EmptyName))
    else
      var sent := Tag(0, name);
      match reply
      case Assigned(id) => Call(Some(sent), Success(sent.(id := id)))
      case CreateFailed(e) => Call(Some(sent), Failure(e))
  }

  /** With the in-memory store behind it, a create with a non-empty name
      succeeds with id `len + 1` and the store gains exactly that tag. */
  lemma CreateOverMemoryStore(store: MemoryTagStorage.Store, name: string)
    requires name != ""
    ensures var call := Create(name, CreateReply.Assigned(|store.tags| + 1));
            var (store', written) := MemoryTagStorage.Create(store, call.request.value);
            && call.response == Success(written)
            && store'.tags == store.tags + [Tag(|store.tags| + 1, name)]
  {
    var (store', written) := MemoryTagStorage.Create(store, Tag(0, name));
    assert store'.tags == store'.tags[..|store.tags|] + [store'.tags[|store.tags|]];
  }

  /** `Update(id, name)`: an empty name is refused before storage is called;
      otherwise exactly `{ID: id, Name: name}` goes to storage, and the
      record is returned as storage left it unless storage fails. `reply`
      carries the id storage leaves in the record: the same id, or a fresh
      one when a save of id 0 inserts a new row. */
  function Update(id: int, name: string, reply: Result<int>): (r: Call<Tag, Result<Tag>>)
    ensures name == "" <==> r.request.None?
    ensures name == "" ==> r.response == Failure(EmptyName)
    ensures name != "" ==> r.request == Some(Tag(id, name))
    ensures name != "" && reply.Success? ==> r.response == Success(Tag(reply.value, name))
    ensures name != "" && reply.Failure? ==> r.response == Failure(reply.error)
  {
    if name == "" then Call(None, Failure(EmptyName))
    else
      var sent := Tag(id, name);
      match reply
      case Success(written) => Call(Some(sent), Success(sent.(id := written)))
      case Failure(e) => Call(Some(sent), Failure(e))
  }

  /** `Delete(id)`: forwards the id and returns storage's outcome as is. */
  function Delete(id: int, reply: Outcome): (r: Call<int, Outcome>)
    ensures r.request == Some(id)
    ensures r.response == reply
  {
    Call(Some(id), reply)
  }

  /** Empty names never reach storage, whatever storage would have said. */
  lemma EmptyNameIgnoresStorage(id: int, c1: CreateReply, c2: CreateReply, u1: Result<int>, u2: Result<int>)
    ensures Create("", c1) == Create("", c2)
    ensures Update(id, "", u1) == Update(id, "", u2)
  {
  }
}

=== FILE: tag_storage.dfy ===
/** `MemoryTagStorage`: tags kept in a slice. Ids are handed out as "length
    plus one", updates and deletes act on the first tag with a matching id. */
module MemoryTagStorage {
  import opened Types

  datatype Store = Store(tags: seq<Tag>)

  /** `k` is the position of the first tag whose id is `id`. */
  predicate IsFirstMatch(tags: seq<Tag>, id: int, k: int) {
    0 <= k < |tags| && tags[k].id == id && forall j :: 0 <= j < k ==> tags[j].id != id
  }

  predicate HasTagId(tags: seq<Tag>, id: int) {
    exists j :: 0 <= j < |tags| && tags[j].id == id
  }

  /** No two tags share an id. */
  predicate UniqueTagIds(tags: seq<Tag>) {
    forall i, j :: 0 <= i < j < |tags| ==> tags[i].id != tags[j].id
  }

  /** The scan of `Update` and `Delete`: the first position holding `id`. */
  function FirstMatch(tags: seq<Tag>, id: int): (k: Option<nat>)
    ensures k.Some? ==> IsFirstMatch(tags, id, k.value)
    ensures k.None? ==> !HasTagId(tags, id)
  {
    if |tags| == 0 then None
    else if tags[0].id == id then Some(0)
    else match FirstMatch(tags[1..], id)
      case None => None
      case Some(k) => Some(k + 1)
  }

  /** `NewMemoryTagStorage`. */
  function New(): (s: Store)
    ensures |s.tags| == 0
  {
    Store([])
  }

  /** `List`: the stored slice; the id, keyword, offset and limit are ignored
      and no error is ever returned. */
  function List(s: Store, id: int, keyword: string, offset: int, limit: int): (r: Result<seq<Tag>>)
    ensures r.Success? && r.value == s.tags
  {
    Success(s.tags)
  }

  /** Whatever the query, `List` answers with every stored tag in order. */
  lemma ListIgnoresQuery(s: Store, id: int, keyword: string, offset: int, limit: int)
    ensures List(s, id, keyword, offset, limit) == Success(s.tags)
    ensures List(s, id, keyword, offset, limit) == List(s, 0, "", 0, 0)
  {
  }

  /** `Create`: writes id `len + 1` into the tag and appends it. The returned
      tag is the caller's record after the call; the error is always nil. */
  function Create(s: Store, tag: Tag): (r: (Store, Tag))
    ensures r.1.id == |s.tags| + 1 && r.1.name == tag.name
    ensures |r.0.tags| == |s.tags| + 1
    ensures r.0.tags[..|s.tags|] == s.tags
    ensures r.0.tags[|s.tags|] == r.1
  {
    var created := tag.(id := |s.tags| + 1);
    (Store(s.tags + [created]), created)
  }

  /** `Update`: overwrite the first tag with the same id, or report
      `ErrTagNotFound` and change nothing. */
  function Update(s: Store, tag: Tag): (r: (Store, Outcome))
    ensures r.1.Ok? <==> HasTagId(s.tags, tag.id)
    ensures r.1.Fail? ==> r.1.error == TagNotFound && r.0 == s
    ensures r.1.Ok? ==> exists k :: IsFirstMatch(s.tags, tag.id, k) && r.0.tags == s.tags[k := tag]
  {
    match FirstMatch(s.tags, tag.id)
    case None => (s, Fail(TagNotFound))
    case Some(k) => (Store(s.tags[k := tag]), Ok)
  }

  /** `Delete`: remove the first tag with the id, keeping the others in
      order, or report `ErrTagNotFound` and change nothing. */
  function Delete(s: Store, id: int): (r: (Store, Outcome))
    ensures r.1.Ok? <==> HasTagId(s.tags, id)
    ensures r.1.Fail? ==> r.1.error == TagNotFound && r.0 == s
    ensures r.1.Ok? ==> |r.0.tags| == |s.tags| - 1
    ensures r.1.Ok? ==> exists k :: IsFirstMatch(s.tags, id, k) && r.0.tags == s.tags[..k] + s.tags[k + 1..]
  {
    match FirstMatch(s.tags, id)
    case None => (s, Fail(TagNotFound))
    case Some(k) => (Store(s.tags[..k] + s.tags[k + 1..]), Ok)
  }

  /** Creating one tag per name, in order. */
  function CreateAll(s: Store, names: seq<string>): Store
    decreases |names|
  {
    if |names| == 0 then s
    else CreateAll(Create(s, Tag(0, names[0])).0, names[1..])
  }

  /** Successive creates number the new tags consecutively after the
      current length, keeping the existing tags in front. */
  lemma {:induction false} CreateAllNumbers(s: Store, names: seq<string>)
    ensures var t := CreateAll(s, names).tags;
            && |t| == |s.tags| + |names|
            && t[..|s.tags|] == s.tags
            && forall i :: 0 <= i < |names| ==> t[|s.tags| + i] == Tag(|s.tags| + i + 1, names[i])
    decreases |names|
  {
    if |names| > 0 {
      var s1 := Create(s, Tag(0, names[0])).0;
      CreateAllNumbers(s1, names[1..]);
      var t := CreateAll(s, names).tags;
      assert t == CreateAll(s1, names[1..]).tags;
      assert t[..|s1.tags|][..|s.tags|] == t[..|s.tags|];
      forall i | 0 <= i < |names|
        ensures t[|s.tags| + i] == Tag(|s.tags| + i + 1, names[i])
      {
        if i > 0 {
          assert names[1..][i - 1] == names[i];
        } else {
          assert t[..|s1.tags|][|s.tags|] == s1.tags[|s.tags|];
        }
      }
    }
  }

  /** From an empty store, n creates give the ids 1..n in order. */
  lemma CreateAllFromEmpty(names: seq<string>)
    ensures var t := CreateAll(New(), names).tags;
            && |t| == |names|
            && forall i :: 0 <= i < |names| ==> t[i] == Tag(i + 1, names[i])
  {
    CreateAllNumbers(New(), names);
  }

  /** Ids are reused: after creating n >= 2 tags and deleting any but the
      last, the next create hands out id n again, which the last tag
      still holds. */
  lemma IdReuseAfterDelete(names: seq<string>, victim: int, name: string)
    requires |names| >= 2 && 1 <= victim < |names|
    ensures var s := CreateAll(New(), names);
            var d := Delete(s, victim).0;
            var (s2, created) := Create(d, Tag(0, name));
            && UniqueTagIds(s.tags)
            && created.id == |names|
            && !UniqueTagIds(s2.tags)
  {
    CreateAllFromEmpty(names);
    var t := CreateAll(New(), names).tags;
    assert t[victim - 1].id == victim;
    var d := DeleteNumbered(t, victim);
    var (s2, created) := Create(d, Tag(0, name));
    assert s2.tags[|d.tags| - 1] == d.tags[|d.tags| - 1];
  }

  /** In a store numbered 1..n, deleting id `victim` removes exactly the
      tag at position `victim - 1`, so the last tag (id n) stays last. */
  lemma DeleteNumbered(t: seq<Tag>, victim: int) returns (d: Store)
    requires forall i :: 0 <= i < |t| ==> t[i].id == i + 1
    requires 1 <= victim < |t|
    ensures d == Delete(Store(t), victim).0
    ensures UniqueTagIds(t)
    ensures |d.tags| == |t| - 1 && d.tags[|d.tags| - 1] == t[|t| - 1]
  {
    var r := Delete(Store(t), victim);
    assert t[victim - 1].id == victim;
    var k :| IsFirstMatch(t, victim, k) && r.0.tags == t[..k] + t[k + 1..];
    d := r.0;
  }

  /** The concrete case: tags 1 and 2, delete 1, create; two tags now
      carry id 2. */
  lemma IdReuseExample()
    ensures var s := CreateAll(New(), ["a", "b"]);
            var d := Delete(s, 1).0;
            Create(d, Tag(0, "c")).0.tags == [Tag(2, "b"), Tag(2, "c")]
  {
    CreateAllFromEmpty(["a", "b"]);
  }

  /** The largest id in use, or 0. */
  function MaxTagId(tags: seq<Tag>): (m: nat)
    ensures forall j :: 0 <= j < |tags| ==> tags[j].id <= m
  {
    if |tags| == 0 then 0
    else
      var rest := MaxTagId(tags[1..]);
      if tags[0].id > rest then tags[0].id else rest
  }

  /** `Create` with the evidently intended id: one above every id in use. */
  function CreateFresh(s: Store, tag: Tag): (r: (Store, Tag))
    ensures !HasTagId(s.tags, r.1.id) && r.1.name == tag.name
    ensures r.0.tags == s.tags + [r.1]
    ensures UniqueTagIds(s.tags) ==> UniqueTagIds(r.0.tags)
  {
    var created := tag.(id := MaxTagId(s.tags) + 1);
    (Store(s.tags + [created]), created)
  }

  /** `Update` and `Delete` keep ids unique; with `CreateFresh` every store
      built from an empty one therefore has unique ids. */
  lemma UpdatePreservesUniqueIds(s: Store, tag: Tag)
    requires UniqueTagIds(s.tags)
    ensures UniqueTagIds(Update(s, tag).0.tags)
  {
  }

  lemma DeletePreservesUniqueIds(s: Store, id: int)
    requires UniqueTagIds(s.tags)
    ensures UniqueTagIds(Delete(s, id).0.tags)
    ensures !HasTagId(Delete(s, id).0.tags, id)
  {
    var r := Delete(s, id);
    if r.1.Ok? {
      var k :| IsFirstMatch(s.tags, id, k) && r.0.tags == s.tags[..k] + s.tags[k + 1..];
      forall i, j | 0 <= i < j < |r.0.tags| ensures r.0.tags[i].id != r.0.tags[j].id {
        var i' := if i < k then i else i + 1;
        var j' := if j < k then j else j + 1;
        assert r.0.tags[i] == s.tags[i'] && r.0.tags[j] == s.tags[j'];
      }
      forall j | 0 <= j < |r.0.tags| ensures r.0.tags[j].id != id {
        var j' := if j < k then j else j + 1;
        assert r.0.tags[j] == s.tags[j'];
      }
    }
  }
}

=== FILE: text.dfy ===
/** String helpers the components rely on: Go's `strings.ToLower` and
    `strings.Contains` for keyword search, and JavaScript's `String.trim` for
    the "blank name" guard of the editors. */
module Text {

  /** ASCII lower-casing of one character; other characters are kept. */
  function LowerChar(c: char): char {
    if 'A' <= c <= 'Z' then (c as int + 32) as char else c
  }

  predicate IsUpper(c: char) {
    'A' <= c <= 'Z'
  }

  /** `strings.ToLower`, restricted to ASCII letters. */
  function Lower(s: string): (r: string)
    ensures |r| == |s|
    ensures forall i :: 0 <= i < |s| ==> r[i] == LowerChar(s[i])
    ensures forall i :: 0 <= i < |r| ==> !IsUpper(r[i])
  {
    seq(|s|, i requires 0 <= i < |s| => LowerChar(s[i]))
  }

  /** Lower-casing twice is lower-casing once. */
  lemma LowerIdempotent(s: string)
    ensures Lower(Lower(s)) == Lower(s)
  {
  }

  /** Lower-casing only touches upper-case letters. */
  lemma LowerFixesNonUpper(s: string)
    requires forall i :: 0 <= i < |s| ==> !IsUpper(s[i])
    ensures Lower(s) == s
  {
  }

  predicate IsPrefix(p: string, s: string) {
    |p| <= |s| && s[..|p|] == p
  }

  /** `strings.Contains(s, sub)`: `sub` starts at some position of `s`.
      `ContainsIff` relates it to the positional definition. */
  predicate Contains(s: string, sub: string)
    ensures IsPrefix(sub, s) ==> Contains(s, sub)
    ensures Contains(s, sub) ==> |sub| <= |s|
    decreases |s|
  {
    IsPrefix(sub, s) || (|s| > 0 && Contains(s[1..], sub))
  }

  /** `sub` occurs in `s` starting at position `i`. */
  predicate OccursAt(s: string, sub: string, i: int) {
    0 <= i && i + |sub| <= |s| && s[i..i + |sub|] == sub
  }

  /** `Contains` agrees with the positional definition of a substring. */
  lemma {:induction false} ContainsIff(s: string, sub: string)
    ensures Contains(s, sub) <==> exists i :: OccursAt(s, sub, i)
  {
    if IsPrefix(sub, s) {
      assert OccursAt(s, sub, 0);
    } else if |s| > 0 {
      ContainsIff(s[1..], sub);
      if Contains(s[1..], sub) {
        var i :| OccursAt(s[1..], sub, i);
        assert s[i + 1..i + 1 + |sub|] == s[1..][i..i + |sub|];
        assert OccursAt(s, sub, i + 1);
      }
      if exists i :: OccursAt(s, sub, i) {
        var i :| OccursAt(s, sub, i);
        if i > 0 {
          assert s[1..][i - 1..i - 1 + |sub|] == s[i..i + |sub|];
          assert OccursAt(s[1..], sub, i - 1);
        }
      }
    }
  }

  /** Nothing contains a string longer than itself. */
  lemma {:induction false} ContainsNoLonger(s: string, sub: string)
    requires |sub| > |s|
    ensures !Contains(s, sub)
    decreases |s|
  {
    if |s| > 0 {
      ContainsNoLonger(s[1..], sub);
    }
  }

  /** Every string contains the empty string. */
  lemma ContainsEmpty(s: string)
    ensures Contains(s, "")
  {
  }

  /** A string contains itself. */
  lemma ContainsSelf(s: string)
    ensures Contains(s, s)
  {
  }

  /** The services' keyword test: an empty keyword keeps everything,
      otherwise a case-insensitive substring match. */
  predicate Matches(keyword: string, text: string) {
    keyword == "" || Contains(Lower(text), Lower(keyword))
  }

  /** The characters `String.prototype.trim` strips: ECMAScript WhiteSpace
      and LineTerminator code points. */
  predicate IsJsWhitespace(c: char) {
    || c == '\t' || c == '\n' || c == '\U{B}' || c == '\U{C}' || c == '\r'
    || c == ' ' || c == '\U{A0}' || c == '\U{1680}'
    || ('\U{2000}' <= c <= '\U{200A}')
    || c == '\U{2028}' || c == '\U{2029}' || c == '\U{202F}' || c == '\U{205F}'
    || c == '\U{3000}' || c == '\U{FEFF}'
  }

  function TrimStart(s: string): (r: string)
    ensures |r| <= |s|
    decreases |s|
  {
    if |s| > 0 && IsJsWhitespace(s[0]) then TrimStart(s[1..]) else s
  }

  function TrimEnd(s: string): (r: string)
    ensures |r| <= |s|
    decreases |s|
  {
    if |s| > 0 && IsJsWhitespace(s[|s| - 1]) then TrimEnd(s[..|s| - 1]) else s
  }

  /** `s.trim()`: leading and trailing whitespace removed; nothing is left
      exactly when there was nothing but whitespace. */
  function Trim(s: string): (r: string)
    ensures |r| <= |s|
    ensures r == "" <==> AllWhitespace(s)
  {
    TrimStartEmptyIff(s);
    TrimEndEmptyIff(TrimStart(s));
    TrimStartHead(s);
    TrimEnd(TrimStart(s))
  }

  /** The editors' guard `!name.trim()`: the trimmed string is empty. */
  predicate IsBlank(s: string)
    ensures IsBlank(s) <==> AllWhitespace(s)
  {
    Trim(s) == ""
  }

  predicate AllWhitespace(s: string) {
    forall i :: 0 <= i < |s| ==> IsJsWhitespace(s[i])
  }

  lemma {:induction false} TrimStartEmptyIff(s: string)
    ensures TrimStart(s) == "" <==> AllWhitespace(s)
  {
    if |s| > 0 && IsJsWhitespace(s[0]) {
      TrimStartEmptyIff(s[1..]);
      assert AllWhitespace(s[1..]) <==> AllWhitespace(s) by {
        if AllWhitespace(s[1..]) {
          forall i | 0 <= i < |s| ensures IsJsWhitespace(s[i]) {
            if i > 0 { assert s[i] == s[1..][i - 1]; }
          }
        }
      }
    }
  }

  lemma {:induction false} TrimEndEmptyIff(s: string)
    ensures TrimEnd(s) == "" <==> AllWhitespace(s)
  {
    if |s| > 0 && IsJsWhitespace(s[|s| - 1]) {
      TrimEndEmptyIff(s[..|s| - 1]);
      assert AllWhitespace(s[..|s| - 1]) <==> AllWhitespace(s) by {
        if AllWhitespace(s[..|s| - 1]) {
          forall i | 0 <= i < |s| ensures IsJsWhitespace(s[i]) {
            if i < |s| - 1 { assert s[i] == s[..|s| - 1][i]; }
          }
        }
      }
    }
  }

  /** What `TrimStart` leaves is empty or starts with a non-whitespace character. */
  lemma {:induction false} TrimStartHead(s: string)
    ensures |TrimStart(s)| == 0 || !IsJsWhitespace(TrimStart(s)[0])
  {
    if |s| > 0 && IsJsWhitespace(s[0]) {
      TrimStartHead(s[1..]);
    }
  }

  /** A string is blank exactly when it consists of whitespace only. */
  lemma BlankIff(s: string)
    ensures IsBlank(s) <==> AllWhitespace(s)
  {
    TrimStartEmptyIff(s);
    TrimEndEmptyIff(TrimStart(s));
    TrimStartHead(s);
  }
}

=== FILE: types.dfy ===
/** The backend's value types: tags, notes, their paginated lists, the error
    values of the tag layer and the `JSResp` envelope the note service answers
    with. Storage and service results are plain values; nothing here has
    identity or mutable state. */
module Types {

  datatype Option<+T> = None | Some(value: T)

  /** A Go `(T, error)` pair where exactly one side is meaningful. */
  datatype Result<+T> = Success(value: T) | Failure(error: Error)

  /** A Go `error` return on its own: `nil` or an error value. */
  datatype Outcome = Ok | Fail(error: Error)

  /** The sentinel errors of the tag layer, and any other error value
      (`errors.New(..)`, a database driver error) by its text. */
  datatype Error =
    | TagNotFound
    | TagNameEmpty
    | TagExists
    | TagInUse
    | InvalidPageNum
    | Raised(message: string)
  {
    /** What `err.Error()` returns. */
    function Text(): string {
      match this
      case TagNotFound => "tag not found"
      case TagNameEmpty => "tag name cannot be empty"
      case TagExists => "tag already exists"
      case TagInUse => "tag is in use"
      case InvalidPageNum => "invalid page number"
      case Raised(m) => m
    }
  }

  datatype Tag = Tag(id: int, name: string)

  /** A note row. `CreatedAt`/`UpdatedAt` are filled in by the database. */
  datatype Note = Note(
    id: int,
    front: string,
    back: string,
    category: string,
    tags: seq<Tag>,
    createdAt: int,
    updatedAt: int)

  /** The Go zero value `Note{}`. */
  const EmptyNote := Note(0, "", "", "", [], 0, 0)

  /** One page of a filtered listing; `TagList` and `NoteList` share this shape. */
  datatype PageList<+T> = PageList(
    total: int,
    totalPages: int,
    currentPage: int,
    pageSize: int,
    data: seq<T>)

  type TagList = PageList<Tag>
  type NoteList = PageList<Note>

  /** What the `any`-typed `Data` field of a response carries; `None` in
      `JSResp.data` is an unset field (omitted from the JSON). */
  datatype Payload = NotePayload(note: Note) | NoteListPayload(list: NoteList)

  /** `JSResp`: `success` is 1 on success and keeps its zero value otherwise. */
  datatype JSResp = JSResp(success: int, msg: string, data: Option<Payload>)

  /** A service call seen from outside: the value it handed to storage, if it
      called storage at all, and what it returned to its own caller. */
  datatype Call<+Q, +R> = Call(request: Option<Q>, response: R)

  /** Storage's answer to a `Create`: the id it wrote back into the record, or
      the error it returned. */
  datatype CreateReply = Assigned(id: int) | CreateFailed(error: Error)
}
